=== FILE: README.md ===
# Vendorify authentication and request decisions, in Dafny

Vendorify is a small Next.js vendor-licensing application. Its only logic
beyond rendering and ORM glue is how it decides requests around sessions.
This project models that logic as pure functions over immutable datatypes:

- the route gate (`proxy.ts`), which passes a request on, redirects it to
  `/login`, or redirects it and deletes the session cookie;
- the password and token helpers (`src/lib/auth.ts`): bcrypt hashing and
  HS256 JSON Web Tokens (RFC 7519) that expire seven days after issue;
- the signup, login and logout endpoints, over a user table keyed by its
  unique email column;
- the upload and vendor-application endpoints, which authorise the caller
  and then run a fixed chain of checks before writing exactly one row.

Layout, one module per source file or component:

| file | module | models |
|---|---|---|
| `js.dfy` | `Js` | `undefined`/`null`, truthiness, `??`, `startsWith`, `length` in UTF-16 code units |
| `utf8.dfy` | `Utf8` | UTF-8 encoding (section 3 of RFC 3629), the bytes bcrypt and `TextEncoder` work on |
| `auth.dfy` | `Auth` | `src/lib/auth.ts` and the behaviour of jose's `jwtVerify` |
| `store.dfy` | `Store` | the user, document and vendor-application tables and the queries the handlers issue |
| `http.dfy` | `Http` | responses, the session cookie and its attributes, the caller lookup the resource endpoints share |
| `proxy.dfy` | `Gate` | `proxy.ts`, including `config.matcher` |
| `signup.dfy`, `login.dfy`, `logout.dfy` | `Signup`, `Login`, `Logout` | `app/api/auth/*/route.ts` |
| `upload.dfy` | `Upload` | `app/api/upload/route.ts` |
| `vendors.dfy` | `Vendors` | `app/api/vendors/route.ts` |
| `browser.dfy` | `Browser` | the client's cookie jar (section 5.3 of RFC 6265), used to chain the handlers and the gate |

Collaborators the code cannot see are abstract:

- **Cryptography.** bcrypt, HMAC and the compact JWS encoding are fields of a
  `Primitives` record of functions. Two ghost predicates list what is
  assumed of them. `Auth.BcryptLawful` covers bcrypt:
  - a password verifies against a hash exactly when its bcrypt key equals
    the hashed password's key. The key is `Auth.BcryptKey`: the UTF-8
    bytes and a zero terminator, repeated to fill 72 bytes;
  - a hash is never the plaintext.

  `Auth.JwsLawful` covers tokens:
  - decoding undoes encoding;
  - an encoded token is never empty.

  Lemmas that rely on these facts name the predicate they need in their
  `requires`. `Auth.BcryptLawsSatisfiable` exhibits primitives meeting the
  bcrypt laws.
- **Empty signing key.** jose's Web Crypto backend refuses a zero-length
  HMAC key. A `JWT_SECRET` that is set but empty therefore makes signing
  throw (`Auth.SignToken` is `None`) and every verification fail.
- **Parameters instead of ambient state.** The clock (`now`, in seconds), the
  bcrypt salt and the environment are parameters. `Auth.Env` holds
  `JWT_SECRET` (possibly unset) and whether `NODE_ENV` is `production`.
- **The database.** `Store.Db` is the database. `online == false` stands for a
  store whose every query throws, which the handlers turn into 500.
- **Parsing.** A body that is not valid JSON, or a form that does not parse,
  is `None` and takes the catch-all 500 path.

The handlers that can touch the store are functions returning the response
and the store after it (`Http.Outcome`). "Nothing changes" is therefore
`out.db == db`. Logout reads no request and touches no store, so it returns
only its `Http.Response`.

## Model

| member | source | states |
|---|---|---|
| `Auth.SigningKey` | src/lib/auth.ts:4-6 | The signing key is `JWT_SECRET` whenever the variable is present, even if empty, and the constant `vendorify-demo-secret-key-2026` only when it is absent. |
| `Gate.GateKey` | proxy.ts:4-6 | The gate's key is the key the handlers sign and verify with, so the gate and the handlers accept the same tokens. |
| `Auth.BcryptKey` | src/lib/auth.ts:16-18 | bcrypt's key is 72 bytes. It starts with the password's UTF-8 bytes, up to 72 of them. When there are fewer, a zero byte follows, and from then on every byte repeats the one a period (bytes plus terminator) earlier. |
| `Auth.BcryptLawsSatisfiable` | src/lib/auth.ts:16-25 | Some primitives meet both bcrypt laws, so lemmas that assume them are not vacuous. |
| `Auth.HashPassword` | src/lib/auth.ts:16-18 | Under the bcrypt laws, the password verifies against its hash, and the hash is not the password. |
| `Auth.VerifyPassword` | src/lib/auth.ts:20-25 | Against a hash of a stored password, verification holds exactly when the two passwords have the same bcrypt key. |
| `Auth.PasswordRoundTrip` | src/lib/auth.ts:16-25 | A password verifies against its own hash for any salt. Another password verifies exactly when it has the same bcrypt key. The hash never equals the plaintext. |
| `Auth.TerminatorAt` | src/lib/auth.ts:16-18 | For a password without U+0000 of at most 72 UTF-8 bytes, the key's first zero byte sits at the encoded length. |
| `Auth.ShortPasswordsDistinct` | src/lib/auth.ts:16-25 | Two passwords without U+0000 of at most 72 UTF-8 bytes each share a bcrypt key only when they are equal. |
| `Auth.LongPasswordsShareHash` | src/lib/auth.ts:16-25 | Anything appended after a password's first 72 UTF-8 bytes is ignored: the longer password verifies against the shorter one's hash. |
| `Auth.DoubledKeyAt` | src/lib/auth.ts:16-18 | A key cycling over bytes `e` and one cycling over `e`, a zero byte and `e` again agree at every position. |
| `Auth.EmbeddedNulCollides` | src/lib/auth.ts:16-25 | A password `w` and the different password `w + U+0000 + w` have the same bcrypt key, so the latter verifies against the former's hash. |
| `Utf8.EncodeChar` | src/lib/auth.ts:16-18 | A character becomes one byte below U+0080, two below U+0800, three below U+10000 and four above, as section 3 of RFC 3629 tables it, so never an overlong form. The lead byte fixes the count, the bytes decode back to the character, and only U+0000 yields a zero byte. |
| `Utf8.Encode` | src/lib/auth.ts:16-18 | A one-character string encodes as that character does; with `Utf8.EncodeAppend` this fixes every string's bytes as its characters' bytes in order. So between one and four bytes per character, and a string without U+0000 has no zero byte. |
| `Utf8.EncodeAppend` | src/lib/auth.ts:16-18 | Encoding a concatenation concatenates the encodings. |
| `Utf8.EncodeInjective` | src/lib/auth.ts:16-18 | Distinct strings have distinct encodings. |
| `Auth.IssuedClaims` | src/lib/auth.ts:29-33 | The claims of a new token are exactly the payload's `userId`, `email` and `name`, with `iat` the signing time and `exp` seven days after `iat`. |
| `Auth.SignToken` | src/lib/auth.ts:29-35 | Signing fails exactly when the signing key is empty. A signed token is non-empty. It decodes to an HS256 JWS whose signature is the HMAC of the issued claims under the signing key. |
| `Auth.JwtVerify` | src/lib/auth.ts:37-43 | Verification succeeds only under a non-empty key. It returns the token's own decoded claims and never expired ones. Every failure is `None`, not an exception. |
| `Auth.VerifyToken` | src/lib/auth.ts:37-43 | A token verifies if and only if the key is non-empty, the token decodes, its signature is the HMAC of its claims under the signing key with an HMAC algorithm, and it has not expired. The result is then the decoded claims. |
| `Auth.SignThenVerify` | src/lib/auth.ts:29-43 | Signing succeeds if and only if the key is non-empty. A freshly signed token verifies to exactly its issued claims strictly before `iat + 604800`, and from that instant on yields `None`. |
| `Auth.EmptySecretDisablesSessions` | src/lib/auth.ts:4-6 | When `JWT_SECRET` is set but empty, signing fails and no token verifies. |
| `Auth.TamperedTokenRejected` | src/lib/auth.ts:37-43 | A token whose signature is not the HMAC of its own claims under the signing key is rejected at every time. This covers an altered signature, altered claims and a foreign key. |
| `Auth.ExpiredTokenRejected` | src/lib/auth.ts:37-43 | A token whose `exp` is at or before the current time is rejected, however it was signed. |
| `Js.Utf16Length` | app/api/auth/signup/route.ts:32 | A one-character string's `length` is 2 for an astral character and 1 otherwise; with `Js.Utf16Append` this fixes every string's length. It lies between the character count and twice that, equal to the first exactly when no character is astral and to the second exactly when all are. |
| `Js.Utf16Append` | app/api/auth/signup/route.ts:32 | The `length` of a concatenation is the sum of the parts' lengths. |
| `Http.SessionToken` | proxy.ts:17 | The session token is present exactly when the request carries a `vendorify_token` cookie, and it is that cookie's value. |
| `Http.CurrentUser` | app/api/upload/route.ts:11-12 | The caller has claims if and only if the session cookie is non-empty and verifies. The claims are then the verified ones. |
| `Http.SessionAttributes` | app/api/auth/signup/route.ts:81-87 | The session cookie is HTTP-only and SameSite=Lax with path `/`. It is `secure` exactly in production, and its lifetime is the given Max-Age. |
| `Gate.Proxy` | proxy.ts:11-31 | An unprotected path always passes. A protected path passes if and only if the caller has verified claims. Every redirect goes to `/login`. A redirect deletes the cookie exactly when a non-empty token was present. |
| `Gate.NeedsAuth` | proxy.ts:14 | A path needs a session exactly when it starts with `/dashboard` or `/vendors/new`. |
| `Gate.Matched` | proxy.ts:33-35 | The matcher selects exactly `/dashboard`, `/vendors/new` and the paths below either of them. |
| `Gate.Middleware` | proxy.ts:33-35 | A path outside the matcher always passes. A matched path gets exactly the gate's answer: it passes if and only if the caller has verified claims, and is otherwise redirected to `/login`, deleting a non-empty cookie that failed. |
| `Gate.MatchedNeedsAuth` | proxy.ts:33-35 | Every path the `config.matcher` patterns select starts with a protected prefix, so the matcher only narrows which requests reach the gate. |
| `Gate.SubPathsGated` | proxy.ts:9-35 | A protected root and every sub-path under it reach the gate. They pass if and only if the session cookie verifies. |
| `Gate.UnprotectedPassesThrough` | proxy.ts:9-15 | A path that starts with no protected prefix passes through whatever cookies it carries. |
| `Store.ValidEmailsUnique` | app/api/auth/signup/route.ts:39-47 | In a consistent store no two users share an email. |
| `Store.FindUserByEmail` | app/api/auth/login/route.ts:18 | The lookup finds a user exactly when the email is registered, and the user found is the stored row. In a consistent store that row carries the email. |
| `Store.CreateUser` | app/api/auth/signup/route.ts:44-57 | Creation is an atomic check-and-insert. A taken email fails with a unique violation and an offline store fails, both leaving the store unchanged. Otherwise exactly one user with a fresh id is added, and consistency is kept. |
| `Store.CreateDocument` | app/api/upload/route.ts:43-49 | Exactly one document is appended, with the next id and the given name, URL and owner. Apart from the document counter moving on by one, nothing else in the store changes, and consistency is kept. |
| `Store.CreateApplication` | app/api/vendors/route.ts:51-59 | Exactly one application is appended, with the next id, the given fields and `createdAt` equal to the request time. Apart from the application counter moving on by one, nothing else in the store changes, and consistency is kept. |
| `Store.OwnedBy` | app/api/vendors/route.ts:15-16 | The filter keeps every application of the given user as often as it occurs, and nothing else. |
| `Store.InsertNewestFirst` | app/api/vendors/route.ts:17 | Inserting into a newest-first list keeps it newest-first and adds exactly the one row. |
| `Store.SortNewestFirst` | app/api/vendors/route.ts:17 | The ordering is a permutation of its input with `createdAt` non-increasing. |
| `Store.NewestFirstUnique` | app/api/vendors/route.ts:17 | When no two rows share a `createdAt`, any two newest-first arrangements of the same rows are equal, so the listing is fully determined by the ordering clause. |
| `Store.ApplicationsOf` | app/api/vendors/route.ts:15-18 | The listing holds exactly the user's applications, each as often as stored, newest first. |
| `Signup.Post` | app/api/auth/signup/route.ts:16-99 | Malformed JSON or an offline store gives 500. Missing fields or a short password give 400, and a registered email gives 409. A valid body with a free email on an online store inserts exactly one user holding the password's hash and moves the user counter on; nothing else in the store changes. The answer is then 201 if and only if the signing key is non-empty: it shows only id, name and email and sets a cookie whose token names the new row. With an empty key the answer is 500 and the user stays inserted. Every other path changes nothing. Details below the table. |
| `Signup.PlaintextNeverStored` | app/api/auth/signup/route.ts:41-47 | The stored credential is never the plaintext password, and the password verifies against it. |
| `Signup.EmptySecretStrandsAccount` | app/api/auth/signup/route.ts:44-97 | With `JWT_SECRET` set but empty, a signup that reaches the insert answers 500 with the user already stored, and signing up again with that email answers 409. |
| `Signup.LengthCountsCodeUnits` | app/api/auth/signup/route.ts:32-37 | The length rule counts UTF-16 code units: three astral-plane emoji pass it, as do two letters and two emoji; three ASCII letters fail it, as do three letters and one emoji. |
| `Signup.SecondSignupConflicts` | app/api/auth/signup/route.ts:44-57 | A second signup with a registered email answers 409 and leaves the store as it was, so emails stay unique. |
| `Login.Post` | app/api/auth/login/route.ts:6-59 | The store never changes. Malformed JSON, an offline store, or correct credentials with an empty signing key give 500, and a missing field gives 400. The answer is 401 if and only if the email is unknown or the password does not verify, and then it is the one 401. It is 200 if and only if the credentials verify and the key is non-empty. A 200 shows only id, name and email and sets the signup cookie for the stored row. Details below the table. |
| `Login.UniformFailure` | app/api/auth/login/route.ts:20-33 | An unknown email and a wrong password for a known email produce identical responses. |
| `Login.NoLengthRule` | app/api/auth/login/route.ts:11-27 | Any non-empty email and password, even a password shorter than six characters, reach the credential check. They never get a 400, and they get a 401 exactly when the credentials do not verify. |
| `Logout.Post` | app/api/auth/logout/route.ts:4-19 | Logout always answers 200 `Logged out` and reads no request. It sets `vendorify_token` to the empty string with Max-Age 0. |
| `Logout.MatchesIssuedCookie` | app/api/auth/logout/route.ts:7-16 | The expiring cookie has the issued cookie's name, path, HTTP-only, secure and SameSite attributes. Only the value and the lifetime (0 instead of 604800) differ. |
| `Upload.Post` | app/api/upload/route.ts:8-63 | No verified session gives 401. A missing file, a type outside the five allowed image types or more than 5 MiB gives 400, and rejections write nothing. The answer is 201 if and only if a verified caller sends an allowed image of at most 5 MiB to an online store. It then appends exactly one document owned by the token's `userId` and moves the document counter on; nothing else in the store changes. Every 500 is the internal-error answer. Details below the table. |
| `Upload.CheckOrder` | app/api/upload/route.ts:10-40 | The checks run in the order session, presence, type, size. A request failing an earlier check gets that check's answer, whatever the later parts hold. |
| `Upload.SizeBoundary` | app/api/upload/route.ts:34-40 | A file of exactly 5 MiB is stored. One byte more is refused. |
| `Vendors.Get` | app/api/vendors/route.ts:6-25 | The store never changes. No verified session gives 401, and an offline store gives 500. Otherwise the answer is 200 with exactly the caller's applications, each as often as stored, newest first. |
| `Vendors.Post` | app/api/vendors/route.ts:28-66 | No verified session gives 401, and a missing field gives 400; rejections write nothing. A success answers 201 after appending exactly one `Pending` application owned by the token's `userId` and moving the application counter on; nothing else in the store changes. Details below the table. |
| `Vendors.OwnerAndStatusIgnored` | app/api/vendors/route.ts:51-59 | A client-supplied `userId` or `status` has no effect on the outcome. |
| `Vendors.UnauthorizedIgnoresStore` | app/api/vendors/route.ts:8-35 | Without a verified session both handlers give the same 401 for every store and body. |
| `Vendors.SubmittedIsListed` | app/api/vendors/route.ts:15-61 | A submitted application appears in its owner's later listing and in no other user's listing. |
| `Browser.Receive` | app/api/auth/logout/route.ts:7-9 | Receiving a cookie replaces the one with the same name and path, or removes it when the cookie has already lapsed. No other cookie changes. |
| `Browser.CookieHeader` | proxy.ts:17 | A request carries a cookie name exactly when the jar holds an unexpired cookie of that name under path `/`, and the value is that cookie's value. |
| `Browser.LoginOpensProtectedPages` | app/api/auth/login/route.ts:35-52 | After a successful login, the cookie may be received later than the token was signed. A page the matcher selects passes the gate exactly until `exp`, seven days after signing. From then until the cookie lapses, seven days after receipt, the gate redirects and deletes the cookie. After that it redirects with nothing to delete. |
| `Browser.SignupOpensProtectedPages` | app/api/auth/signup/route.ts:67-87 | Whenever the cookie is received, a successful signup's cookie opens every page the matcher selects until seven days after signing. |
| `Browser.LogoutClosesProtectedPages` | app/api/auth/logout/route.ts:4-19 | After logout the session cookie is gone, and every page the matcher selects redirects to `/login`. |
| `Browser.GateDeletionClears` | proxy.ts:26-30 | When the gate deletes a session cookie that failed verification, the client drops it. The next request to a page the matcher selects is then a plain redirect, not another failed verification. |
| `Browser.OtherPathDoesNotClear` | app/api/auth/logout/route.ts:7-15 | An expiring cookie sent under a path other than `/` leaves the session cookie in place. This is why logout repeats the issued attributes. |
| `Browser.SignupThenLogin` | app/api/auth/login/route.ts:18-44 | After a signup, login with the same email succeeds if and only if the password has the signed-up password's bcrypt key, and it returns the same public user. For passwords without U+0000 of at most 72 UTF-8 bytes, that means the same password. |
| `Browser.LongPasswordPrefixLogsIn` | app/api/auth/signup/route.ts:23-37 | Signup sets no upper length bound. After signing up with a password of 72 or more UTF-8 bytes, that password followed by anything logs in. |

`Signup.Post` outcomes (source: app/api/auth/signup/route.ts:16-99):

- Malformed JSON gives 500.
- A falsy field gives 400 "Name, email, and password are required."
- A password shorter than 6 UTF-16 code units gives 400 "Password must be at least 6 characters." This check runs only after the presence check.
- A registered email gives 409 "An account with this email already exists."
- An offline store gives 500.
- No rejection changes the store or sets a cookie.
- Otherwise exactly one user is added, holding the password's hash.
- If the signing key is empty, signing then throws: the answer is 500 with no cookie, and the user stays stored.
- Otherwise the answer is 201.
  - The body shows only the user's id, name and email.
  - The session cookie's token carries the new row's id, email and name.
- Store consistency is preserved.

`Login.Post` outcomes (source: app/api/auth/login/route.ts:6-59):

- The store never changes.
- Malformed JSON gives 500.
- A falsy field gives 400.
- An offline store gives 500.
- A failed credential check gives the one 401 "Invalid email or password."
- Correct credentials with an empty signing key give 500, because signing throws.
- The answer is 200 if and only if the email is registered, the password verifies and the key is non-empty.
  - The body shows only id, name and email.
  - The token carries the stored row's identity.
  - The cookie is the one signup issues.
- Only a 200 sets a cookie.

`Upload.Post` outcomes (source: app/api/upload/route.ts:8-63):

- No verified session gives 401 `Unauthorized`.
- After that, a missing or empty `file` gives 400.
- A type outside the five image types gives 400.
- More than 5·1024·1024 bytes gives 400.
- Malformed forms and an offline store give 500, and nothing else does.
- No rejection writes anything.
- A success answers 201 with the file's name, after appending exactly one document. The document has the file's name, the fixed mock URL and the session's `userId`.

`Vendors.Post` outcomes (source: app/api/vendors/route.ts:28-66):

- No verified session gives 401, before the body is read.
- A falsy `vendorName`, `stallType` or `licenseNumber` gives 400.
- Malformed JSON and an offline store give 500.
- No rejection writes anything.
- A success answers 201 with the created application, after appending exactly that one row.
  - The row is built from the three fields.
  - Its status is `Pending`.
  - Its owner is the session's `userId`.
  - Its `createdAt` is the request time.
- Store consistency is preserved.

## Left out

- Page components, client forms, the ORM client singleton, example queries, seeding and framework configuration other than `config.matcher`: rendering and I/O with no decision logic. The client forms' own checks only mirror the server's.
- bcrypt, HMAC-SHA256 and the base64url/JSON encoding of tokens are foreign code. They are represented by the `Primitives` record and the `BcryptLawful` and `JwsLawful` assumptions.
- Auth.BcryptLawful: passwords with different 72-byte keys are assumed never to match, where Blowfish only makes a match improbable. A hash is assumed never to equal its plaintext. Equal keys do match, exactly as bcrypt computes it.
- Auth.JwtVerify: models jose's checks that matter here: decoding, an HMAC algorithm with a matching signature, and `exp`. It leaves out `nbf`, the type checks on registered claims, and the shape of any other claims. A payload is assumed to have the `JwtPayload` field types, as the source's unchecked cast assumes.
- Auth.SignToken: jose reads the clock separately for `iat` and for `exp`. The model uses one instant for both, so `exp - iat` is exactly 604800 seconds; in the source it can be one second more.
- Failures of `hashPassword` are not modelled. They are possible only for inputs the model's types exclude, such as a non-string password.
- Auth.SignToken: the only `signToken` failure modelled is the empty key. This follows jose's Web Crypto backend, where `importKey` rejects a zero-length HMAC key. A backend that accepted it would sign and verify with the empty key instead.
- JSON fields of a type other than string are not modelled: a field is a string, missing or `null`. Any other JSON type would reach the source's catch-all 500 or an unchecked cast.
- Lone surrogates: a JavaScript string may hold an unpaired UTF-16 surrogate, which a Dafny `string` of Unicode scalar values cannot. Such passwords, names and emails are not modelled.
- The `secure` flag's dependence on `NODE_ENV` is the parameter `Env.production`. The warning printed when `JWT_SECRET` is unset, and all other logging, is not modelled.
- Concurrent signups: the unique email constraint is modelled as an atomic check-and-insert in `Store.CreateUser`, so two signups are always sequential in the model.
- Store errors are one flag: `online == false` makes every query throw. A foreign-key failure for a token whose user no longer exists is not modelled separately; it would reach the same 500 path.
- Rows with equal `createdAt` are listed in a fixed order here; the database leaves their order unspecified. With distinct timestamps the order is forced (`Store.NewestFirstUnique`).
- Gate.Proxy: the redirect location is the path `/login`; the source resolves it against the request URL. `config.matcher` is matched case-sensitively, and framework-internal routes are not modelled.
- Browser.CookieHeader: the model builds the `Cookie` header from cookies of path `/` only, the only path the application sets. A single domain is assumed.

=== FILE: auth.dfy ===
/**
 The password and session-token helpers of `src/lib/auth.ts`.

 bcrypt, HMAC and the compact JWS serialisation live in libraries outside
 this model. They are passed in as a `Primitives` record of functions, and
 two ghost predicates state what the model assumes of them. `BcryptLawful`
 says a password matches a hash exactly when it yields the same bcrypt key
 as the hashed password, and a hash is never the plaintext. `JwsLawful` says
 decoding undoes encoding. Every lemma that needs one of these facts says so
 in its `requires`.
 */
module Auth {
  import opened Js
  import Utf8

  /** The process environment the helpers read. */
  datatype Env = Env(jwtSecret: Option<string>, production: bool)

  /** The insecure default signing key used when `JWT_SECRET` is unset. */
  const FallbackSecret: string := "vendorify-demo-secret-key-2026"

  /** `process.env.JWT_SECRET ?? 'vendorify-demo-secret-key-2026'`: an empty
      but present variable is used as is, only an absent one falls back. */
  function SigningKey(env: Env): (key: string)
    ensures env.jwtSecret.Some? ==> key == env.jwtSecret.value
    ensures env.jwtSecret.None? ==> key == FallbackSecret
  {
    Coalesce(env.jwtSecret, FallbackSecret)
  }

  /** The identity a session carries (`JwtPayload`). */
  datatype JwtPayload = JwtPayload(userId: int, email: string, name: string)

  /** The claims of a token: the identity plus the registered `iat` and
      `exp` claims (seconds since the epoch), either of which a token not
      minted here may lack. */
  datatype Claims = Claims(userId: int, email: string, name: string, iat: Option<int>, exp: Option<int>)

  function Identity(c: Claims): JwtPayload {
    JwtPayload(c.userId, c.email, c.name)
  }

  /** A decoded JWS: the protected header's `alg`, the claims and the signature. */
  datatype Jws = Jws(alg: string, claims: Claims, signature: string)

  type Salt = string

  /** The cryptographic and encoding functions the helpers call. */
  datatype Primitives = Primitives(
    bcryptHash: (string, int, Salt) -> string,   // password, cost, random salt
    bcryptCompare: (string, string) -> bool,     // password, stored hash
    hmac: (string, string, Claims) -> string,    // key, alg, claims
    encode: Jws -> string,
    decode: string -> Option<Jws>)

  // ─── Passwords ─────────────────────────────────────────────────────────────

  /** The bytes of the key bcrypt's key schedule reads: 18 words of the
      P-array. */
  const BcryptKeyLength: int := 72

  /** `k` repeated to fill `n` entries: it starts with `k`, and from `|k|` on
      every entry repeats the one a period earlier. */
  function Cycle(k: seq<int>, n: nat): (r: seq<int>)
    requires |k| > 0
    ensures |r| == n
    ensures forall i :: 0 <= i < n && i < |k| ==> r[i] == k[i]
    ensures forall i :: |k| <= i < n ==> r[i] == r[i - |k|]
    decreases n
  {
    if n <= |k| then k[..n] else var prev := Cycle(k, n - 1); prev + [prev[n - 1 - |k|]]
  }

  /** What bcrypt makes of a password: its UTF-8 bytes followed by a zero
      terminator, repeated cyclically to fill 72 bytes. Bytes past the 72nd
      never reach the hash. */
  function BcryptKey(password: string): (key: seq<int>)
    ensures |key| == BcryptKeyLength
    ensures forall i :: 0 <= i < |Utf8.Encode(password)| && i < BcryptKeyLength ==> key[i] == Utf8.Encode(password)[i]
    ensures |Utf8.Encode(password)| < BcryptKeyLength ==> key[|Utf8.Encode(password)|] == 0
    ensures forall i :: |Utf8.Encode(password)| < i < BcryptKeyLength ==> key[i] == key[i - |Utf8.Encode(password)| - 1]
  {
    Cycle(Utf8.Encode(password) + [0], BcryptKeyLength)
  }

  /** What the model assumes of bcrypt: a password matches a hash exactly
      when its key equals the hashed password's key, whatever the cost and
      salt, and a hash is never the plaintext. */
  ghost predicate BcryptLawful(p: Primitives) {
    && (forall password, other, cost, salt {:trigger p.bcryptCompare(other, p.bcryptHash(password, cost, salt))} ::
          p.bcryptCompare(other, p.bcryptHash(password, cost, salt)) <==> BcryptKey(other) == BcryptKey(password))
    && (forall password, cost, salt :: p.bcryptHash(password, cost, salt) != password)
  }

  /** What the model assumes of the compact JWS serialisation: decoding
      undoes encoding, and no token is the empty string. */
  ghost predicate JwsLawful(p: Primitives) {
    && (forall t :: p.decode(p.encode(t)) == Some(t))
    && (forall t :: p.encode(t) != "")
  }

  /** The two bcrypt laws can hold together: a "hash" that keeps the
      password behind a `$` satisfies them. */
  lemma BcryptLawsSatisfiable()
    ensures exists p :: BcryptLawful(p)
  {
    var p := Primitives(
      (password: string, cost: int, salt: Salt) => "$" + password,
      (other: string, hash: string) => |hash| > 0 && hash[0] == '$' && BcryptKey(other) == BcryptKey(hash[1..]),
      (key: string, alg: string, c: Claims) => "",
      (t: Jws) => "",
      (token: string) => None);
    forall password, other, cost, salt
      ensures p.bcryptCompare(other, p.bcryptHash(password, cost, salt)) <==> BcryptKey(other) == BcryptKey(password)
    {
      assert ("$" + password)[1..] == password;
    }
    forall password, cost, salt
      ensures p.bcryptHash(password, cost, salt) != password
    {
      assert |p.bcryptHash(password, cost, salt)| == |password| + 1;
    }
    assert BcryptLawful(p);
  }

  /** The bcrypt cost factor `hashPassword` passes. */
  const BcryptRounds: int := 10

  /** `hashPassword(password)`; `salt` is the random salt bcrypt draws. */
  function HashPassword(p: Primitives, password: string, salt: Salt): (hash: string)
    ensures BcryptLawful(p) ==> p.bcryptCompare(password, hash)
    ensures BcryptLawful(p) ==> hash != password
  {
    p.bcryptHash(password, BcryptRounds, salt)
  }

  /** `verifyPassword(password, hash)`: against a hash this module made, it
      holds exactly when the bcrypt keys agree. */
  function VerifyPassword(p: Primitives, password: string, hash: string): (ok: bool)
    ensures BcryptLawful(p) ==>
      forall stored, salt :: hash == HashPassword(p, stored, salt) ==> (ok <==> BcryptKey(password) == BcryptKey(stored))
  {
    p.bcryptCompare(password, hash)
  }

  /** A password verifies against its own hash, whatever the salt; another
      password does exactly when it has the same bcrypt key; and the hash
      never equals the plaintext. */
  lemma PasswordRoundTrip(p: Primitives, password: string, other: string, salt: Salt)
    requires BcryptLawful(p)
    ensures VerifyPassword(p, password, HashPassword(p, password, salt))
    ensures VerifyPassword(p, other, HashPassword(p, password, salt)) <==> BcryptKey(other) == BcryptKey(password)
    ensures HashPassword(p, password, salt) != password
  {
  }

  /** The position of the first zero byte, or the length when there is none. */
  function FirstZero(bytes: seq<int>): (n: int)
    ensures 0 <= n <= |bytes|
    ensures forall i :: 0 <= i < n ==> bytes[i] != 0
    ensures n < |bytes| ==> bytes[n] == 0
  {
    if |bytes| == 0 || bytes[0] == 0 then 0 else 1 + FirstZero(bytes[1..])
  }

  /** For a password without U+0000 that fits the key, the terminator is
      the key's first zero byte, so the key reveals the password's length. */
  lemma TerminatorAt(password: string)
    requires Utf8.NulFree(password) && |Utf8.Encode(password)| <= BcryptKeyLength
    ensures FirstZero(BcryptKey(password)) == |Utf8.Encode(password)|
  {
  }

  /** Passwords of at most 72 UTF-8 bytes without U+0000 have distinct
      bcrypt keys, so none of them verifies against another's hash. */
  lemma ShortPasswordsDistinct(a: string, b: string)
    requires Utf8.NulFree(a) && Utf8.NulFree(b)
    requires |Utf8.Encode(a)| <= BcryptKeyLength && |Utf8.Encode(b)| <= BcryptKeyLength
    requires BcryptKey(a) == BcryptKey(b)
    ensures a == b
  {
    TerminatorAt(a);
    TerminatorAt(b);
    var ea, eb := Utf8.Encode(a), Utf8.Encode(b);
    assert |ea| == |eb|;
    assert forall i :: 0 <= i < |ea| ==> ea[i] == BcryptKey(a)[i] == eb[i];
    Utf8.EncodeInjective(a, b);
  }

  /** Whatever follows the first 72 UTF-8 bytes of a password is ignored:
      the longer password verifies against the shorter one's hash. */
  lemma LongPasswordsShareHash(p: Primitives, password: string, suffix: string, salt: Salt)
    requires BcryptLawful(p)
    requires |Utf8.Encode(password)| >= BcryptKeyLength
    ensures BcryptKey(password + suffix) == BcryptKey(password)
    ensures VerifyPassword(p, password + suffix, HashPassword(p, password, salt))
  {
    Utf8.EncodeAppend(password, suffix);
    assert BcryptKey(password + suffix) == BcryptKey(password);
  }

  /** A key in the shape `BcryptKey` promises for the bytes `e`: it starts
      with `e`, then the terminator, then repeats with period `|e| + 1`. */
  ghost predicate CyclesOver(e: seq<int>, key: seq<int>) {
    && |key| == BcryptKeyLength
    && (forall i :: 0 <= i < |e| && i < BcryptKeyLength ==> key[i] == e[i])
    && (|e| < BcryptKeyLength ==> key[|e|] == 0)
    && (forall i :: |e| < i < BcryptKeyLength ==> key[i] == key[i - |e| - 1])
  }

  /** Entry `i` of a key cycling over `e + [0] + e` agrees with one cycling
      over `e`: both repeat with period `|e| + 1`. */
  lemma {:induction false} DoubledKeyAt(e: seq<int>, key: seq<int>, key': seq<int>, i: int)
    requires CyclesOver(e, key) && CyclesOver(e + [0] + e, key')
    requires 0 <= i < BcryptKeyLength
    ensures key'[i] == key[i]
    decreases i
  {
    var e' := e + [0] + e;
    var m := |e| + 1;
    if i < |e| {
      assert key'[i] == e'[i];
    } else if i == |e| {
      assert key'[i] == e'[i];
    } else if i < |e'| {
      assert key'[i] == e'[i] == e[i - m];
      assert key[i] == key[i - m];
    } else if i == |e'| {
      assert key[i] == key[i - m];
    } else {
      DoubledKeyAt(e, key, key', i - 2 * m);
      assert key'[i] == key'[i - 2 * m];
      assert key[i] == key[i - m] == key[i - 2 * m];
    }
  }

  /** A password with U+0000 in it can share a key with a different one: the
      terminator bcrypt appends makes `password` and `password + "\0" +
      password` cycle to the same 72 bytes, so the latter verifies against
      the former's hash. */
  lemma EmbeddedNulCollides(p: Primitives, password: string, salt: Salt)
    requires BcryptLawful(p)
    ensures password + "\0" + password != password
    ensures BcryptKey(password + "\0" + password) == BcryptKey(password)
    ensures VerifyPassword(p, password + "\0" + password, HashPassword(p, password, salt))
  {
    assert |password + "\0" + password| > |password|;
    var e := Utf8.Encode(password);
    Utf8.EncodeAppend(password + "\0", password);
    Utf8.EncodeAppend(password, "\0");
    assert Utf8.Encode("\0") == [0];
    assert Utf8.Encode(password + "\0" + password) == e + [0] + e;
    var key, key' := BcryptKey(password), BcryptKey(password + "\0" + password);
    assert CyclesOver(e, key);
    assert CyclesOver(e + [0] + e, key');
    forall i | 0 <= i < BcryptKeyLength
      ensures key'[i] == key[i]
    {
      DoubledKeyAt(e, key, key', i);
    }
  }

  // ─── Tokens ────────────────────────────────────────────────────────────────

  /** The protected header `signToken` writes. */
  const SigningAlg: string := "HS256"

  /** The HMAC algorithms `jwtVerify` accepts for a symmetric key. */
  const HmacAlgs: set<string> := {"HS256", "HS384", "HS512"}

  /** jose's `'7d'`, in seconds. */
  const SessionLifetime: int := 7 * 24 * 60 * 60

  /** The claims `signToken` writes at time `now`: the payload, `iat = now`
      and `exp = now + 7 days`. */
  function IssuedClaims(payload: JwtPayload, now: int): (c: Claims)
    ensures Identity(c) == payload
    ensures c.iat == Some(now)
    ensures c.exp == Some(now + SessionLifetime)
  {
    Claims(payload.userId, payload.email, payload.name, Some(now), Some(now + SessionLifetime))
  }

  /** The JWS `signToken` serialises. */
  function SignedJws(p: Primitives, key: string, payload: JwtPayload, now: int): Jws {
    var c := IssuedClaims(payload, now);
    Jws(SigningAlg, c, p.hmac(key, SigningAlg, c))
  }

  /** Web Crypto refuses a zero-length HMAC key (`importKey` throws a
      `DataError`), and `TextEncoder` yields no bytes only for `""`. */
  predicate UsableKey(key: string) {
    key != ""
  }

  /** `signToken(payload)`, with the clock read passed in as `now`; `None`
      is the exception it throws when the key is empty. */
  function SignToken(p: Primitives, env: Env, payload: JwtPayload, now: int): (token: Option<string>)
    ensures token.Some? <==> UsableKey(SigningKey(env))
    ensures JwsLawful(p) && token.Some? ==> token.value != ""
    ensures JwsLawful(p) && token.Some? ==> p.decode(token.value) == Some(SignedJws(p, SigningKey(env), payload, now))
  {
    var key := SigningKey(env);
    if UsableKey(key) then Some(p.encode(SignedJws(p, key, payload, now))) else None
  }

  /** The signature of `t` is the HMAC of its claims under `key`. */
  predicate Authentic(p: Primitives, key: string, t: Jws) {
    t.alg in HmacAlgs && t.signature == p.hmac(key, t.alg, t.claims)
  }

  /** jose rejects a token once `exp <= now`; a token without `exp` never expires. */
  predicate Current(c: Claims, now: int) {
    c.exp.None? || now < c.exp.value
  }

  /** jose's `jwtVerify(token, key)`, its exception turned into `None`. */
  function JwtVerify(p: Primitives, key: string, token: string, now: int): (r: Option<Claims>)
    ensures r.Some? ==> UsableKey(key) && Current(r.value, now)
    ensures r.Some? ==> p.decode(token).Some? && p.decode(token).value.claims == r.value
  {
    if !UsableKey(key) then None
    else match p.decode(token)
    case None => None
    case Some(t) => if Authentic(p, key, t) && Current(t.claims, now) then Some(t.claims) else None
  }

  /** `verifyToken(token)`: the claims of a valid token, `None` for any
      malformed, forged, tampered or expired one. It has no failure path
      other than `None`. */
  function VerifyToken(p: Primitives, env: Env, token: string, now: int): (r: Option<Claims>)
    ensures r.Some? <==>
      && UsableKey(SigningKey(env)) && p.decode(token).Some?
      && Authentic(p, SigningKey(env), p.decode(token).value) && Current(p.decode(token).value.claims, now)
    ensures r.Some? ==> r.value == p.decode(token).value.claims
  {
    JwtVerify(p, SigningKey(env), token, now)
  }

  /** Signing succeeds exactly when the key is not empty, and a freshly
      signed token verifies, with exactly the signed identity, until
      `iat + 7 days`, and from that instant on it does not. */
  lemma SignThenVerify(p: Primitives, env: Env, payload: JwtPayload, issuedAt: int, now: int)
    requires JwsLawful(p)
    ensures SignToken(p, env, payload, issuedAt).Some? <==> SigningKey(env) != ""
    ensures SignToken(p, env, payload, issuedAt).Some? ==>
      (VerifyToken(p, env, SignToken(p, env, payload, issuedAt).value, now).Some? <==> now < issuedAt + SessionLifetime)
    ensures SignToken(p, env, payload, issuedAt).Some? && now < issuedAt + SessionLifetime ==>
      VerifyToken(p, env, SignToken(p, env, payload, issuedAt).value, now) == Some(IssuedClaims(payload, issuedAt))
  {
  }

  /** A `JWT_SECRET` that is set but empty disables sessions: signing
      throws and no token verifies. */
  lemma EmptySecretDisablesSessions(p: Primitives, env: Env, payload: JwtPayload, token: string, now: int)
    requires env.jwtSecret == Some("")
    ensures SignToken(p, env, payload, now).None?
    ensures VerifyToken(p, env, token, now).None?
  {
  }

  /** A token whose signature is not the HMAC of its own claims under the
      signing key (a changed signature byte, changed claims, another key)
      does not verify, whatever the time. */
  lemma TamperedTokenRejected(p: Primitives, env: Env, token: string, t: Jws, now: int)
    requires p.decode(token) == Some(t)
    requires t.signature != p.hmac(SigningKey(env), t.alg, t.claims)
    ensures VerifyToken(p, env, token, now) == None
  {
  }

  /** A token is rejected at and after its expiry, however it was signed. */
  lemma ExpiredTokenRejected(p: Primitives, env: Env, token: string, t: Jws, now: int)
    requires p.decode(token) == Some(t)
    requires t.claims.exp.Some? && t.claims.exp.value <= now
    ensures VerifyToken(p, env, token, now) == None
  {
  }
}

=== FILE: browser.dfy ===
/**
 The client's side of the session cookie, after section 5.3 of RFC 6265: a
 cookie jar keyed by name and path, which `Set-Cookie` headers update and
 from which the `Cookie` header of later requests is built. With it the
 handlers and the gate can be put in sequence: sign up or log in, visit a
 protected page, log out.
 */
module Browser {
  import opened Js
  import Utf8
  import opened Auth
  import opened Store
  import opened Http
  import Gate
  import Signup
  import Login
  import Logout

  /** Cookies with the same name, domain and path replace each other
      (one domain here). */
  datatype CookieKey = CookieKey(name: string, path: string)

  datatype StoredCookie = StoredCookie(value: string, expiresAt: int)

  type Jar = map<CookieKey, StoredCookie>

  /** When a received cookie lapses: Max-Age counts from the moment it is
      received, and a Max-Age of zero or less means the earliest
      representable time (section 5.2.2 of RFC 6265). */
  function ExpiryTime(e: Expiry, now: int): (t: int)
    ensures t <= now <==> (e.MaxAge? && e.seconds <= 0) || (e.ExpiresAt? && e.epoch <= now)
  {
    match e
    case MaxAge(s) => if s <= 0 then now - 1 else now + s
    case ExpiresAt(epoch) => epoch
  }

  /** Receiving one `Set-Cookie` at `now`: the cookie with the same name and
      path is replaced, and a cookie that has already lapsed is removed
      instead of stored. No other cookie changes. */
  function Receive(jar: Jar, c: SetCookie, now: int): (jar': Jar)
    ensures var k := CookieKey(c.name, c.attributes.path);
      && (ExpiryTime(c.attributes.expiry, now) <= now ==> k !in jar')
      && (ExpiryTime(c.attributes.expiry, now) > now ==> k in jar' && jar'[k] == StoredCookie(c.value, ExpiryTime(c.attributes.expiry, now)))
      && (forall k' :: k' != k ==> (k' in jar' <==> k' in jar) && (k' in jar ==> jar'[k'] == jar[k']))
  {
    var k := CookieKey(c.name, c.attributes.path);
    var t := ExpiryTime(c.attributes.expiry, now);
    if t <= now then jar - {k} else jar[k := StoredCookie(c.value, t)]
  }

  function ReceiveAll(jar: Jar, c: Option<SetCookie>, now: int): Jar {
    match c
    case None => jar
    case Some(sc) => Receive(jar, sc, now)
  }

  /** The cookies a request carries at `now`: the unexpired cookies of path
      `/`, which every path of the site matches. */
  function CookieHeader(jar: Jar, now: int): (h: map<string, string>)
    ensures forall n :: n in h <==> CookieKey(n, "/") in jar && jar[CookieKey(n, "/")].expiresAt > now
    ensures forall n :: n in h ==> h[n] == jar[CookieKey(n, "/")].value
  {
    map k | k in jar && k.path == "/" && jar[k].expiresAt > now :: k.name := jar[k].value
  }

  /** After a successful login signed at `now` and received at `received`,
      a protected page passes the gate exactly until the token's `exp`,
      seven days after signing. The cookie's Max-Age counts from receipt,
      so until it lapses the gate finds an expired token, redirects and
      deletes the cookie; once it has lapsed the gate redirects with
      nothing to delete. */
  lemma LoginOpensProtectedPages(p: Primitives, env: Env, db: Db, b: Login.LoginBody, jar: Jar,
                                 now: int, received: int, later: int, path: string)
    requires JwsLawful(p)
    requires Login.Post(p, env, db, Some(b), now).response.status == 200
    requires now <= received <= later && Gate.Matched(path)
    ensures var jar' := ReceiveAll(jar, Login.Post(p, env, db, Some(b), now).response.cookie, received);
      var r := Gate.Middleware(p, env, path, CookieHeader(jar', later), later);
      && (later < now + SessionLifetime ==> r == Gate.Next)
      && (now + SessionLifetime <= later < received + SessionMaxAge ==>
            r == Gate.Redirect(Gate.LoginPath, Some(Gate.DeleteSessionCookie)))
      && (later >= received + SessionMaxAge ==> r == Gate.Redirect(Gate.LoginPath, None))
  {
  }

  /** The cookie a successful signup issues opens protected pages the
      same way until the token's `exp`. */
  lemma SignupOpensProtectedPages(p: Primitives, env: Env, db: Db, b: Signup.SignupBody, salt: Salt, jar: Jar,
                                  now: int, received: int, later: int, path: string)
    requires JwsLawful(p)
    requires Signup.Post(p, env, db, Some(b), salt, now).response.status == 201
    requires now <= received <= later && later < now + SessionLifetime && Gate.Matched(path)
    ensures var jar' := ReceiveAll(jar, Signup.Post(p, env, db, Some(b), salt, now).response.cookie, received);
      Gate.Middleware(p, env, path, CookieHeader(jar', later), later) == Gate.Next
  {
  }

  /** Logging out removes the session cookie the auth endpoints set, so the
      next visit to a protected page is redirected to the login page. */
  lemma LogoutClosesProtectedPages(p: Primitives, env: Env, jar: Jar, now: int, later: int, path: string)
    requires now <= later && Gate.Matched(path)
    ensures var jar' := ReceiveAll(jar, Logout.Post(env).cookie, now);
      && CookieKey(SessionCookieName, "/") !in jar'
      && Gate.Middleware(p, env, path, CookieHeader(jar', later), later) == Gate.Redirect(Gate.LoginPath, None)
  {
  }

  /** The gate's deletion of a session cookie that did not verify removes
      it from the client, so the next protected request is a plain redirect
      rather than another failed verification. */
  lemma GateDeletionClears(p: Primitives, env: Env, path: string, cookies: map<string, string>, jar: Jar,
                           now: int, later: int, next: string)
    requires 0 <= now <= later && Gate.Matched(next)
    requires Gate.Middleware(p, env, path, cookies, now).Redirect? && Gate.Middleware(p, env, path, cookies, now).cookie.Some?
    ensures var jar' := ReceiveAll(jar, Gate.Middleware(p, env, path, cookies, now).cookie, now);
      && CookieKey(SessionCookieName, "/") !in jar'
      && Gate.Middleware(p, env, next, CookieHeader(jar', later), later) == Gate.Redirect(Gate.LoginPath, None)
  {
  }

  /** Why the expiring cookie must repeat the path: one sent under another
      path is a different cookie and leaves the session cookie in place. */
  lemma OtherPathDoesNotClear(jar: Jar, c: SetCookie, now: int)
    requires c.name == SessionCookieName && c.attributes.path != "/"
    ensures var jar' := Receive(jar, c, now);
      CookieKey(SessionCookieName, "/") in jar' <==> CookieKey(SessionCookieName, "/") in jar
  {
  }

  /** A user who signed up can log in with exactly the passwords that give
      the same bcrypt key as the one signed up with, and gets the same
      public user back. Among passwords of at most 72 UTF-8 bytes without
      U+0000 that is the signed-up password alone. */
  lemma SignupThenLogin(p: Primitives, env: Env, db: Db, b: Signup.SignupBody, salt: Salt, password: string,
                        now: int, later: int)
    requires BcryptLawful(p) && Valid(db)
    requires Signup.Inserts(db, Some(b)) && UsableKey(SigningKey(env))
    requires password != ""
    ensures Signup.Post(p, env, db, Some(b), salt, now).response.status == 201
    ensures var db' := Signup.Post(p, env, db, Some(b), salt, now).db;
      var r := Login.Post(p, env, db', Some(Login.LoginBody(b.email, Some(password))), later).response;
      && (r.status == 200 <==> BcryptKey(password) == BcryptKey(b.password.value))
      && (r.status == 200 ==> r.body.user == Signup.Post(p, env, db, Some(b), salt, now).response.body.user)
      && (Utf8.NulFree(password) && Utf8.NulFree(b.password.value)
          && |Utf8.Encode(password)| <= BcryptKeyLength && |Utf8.Encode(b.password.value)| <= BcryptKeyLength
          ==> (r.status == 200 <==> password == b.password.value))
  {
    if Utf8.NulFree(password) && Utf8.NulFree(b.password.value)
       && |Utf8.Encode(password)| <= BcryptKeyLength && |Utf8.Encode(b.password.value)| <= BcryptKeyLength
       && BcryptKey(password) == BcryptKey(b.password.value)
    {
      ShortPasswordsDistinct(password, b.password.value);
    }
  }

  /** Signup sets no upper bound on the password, and bcrypt reads only
      its first 72 UTF-8 bytes: after signing up with a longer password,
      that password followed by anything logs in. */
  lemma LongPasswordPrefixLogsIn(p: Primitives, env: Env, db: Db, b: Signup.SignupBody, salt: Salt, suffix: string,
                                 now: int, later: int)
    requires BcryptLawful(p) && Valid(db)
    requires Signup.Inserts(db, Some(b)) && UsableKey(SigningKey(env))
    requires |Utf8.Encode(b.password.value)| >= BcryptKeyLength
    ensures Signup.Post(p, env, db, Some(b), salt, now).response.status == 201
    ensures var db' := Signup.Post(p, env, db, Some(b), salt, now).db;
      Login.Post(p, env, db', Some(Login.LoginBody(b.email, Some(b.password.value + suffix))), later).response.status == 200
  {
    LongPasswordsShareHash(p, b.password.value, suffix, salt);
  }
}

=== FILE: http.dfy ===
/**
 The HTTP surface shared by the route handlers: JSON responses with a status,
 at most one `Set-Cookie`, the session cookie's fixed attributes, and the
 "who is calling" lookup the resource endpoints repeat
 (`token ? await verifyToken(token) : null`).
 */
module Http {
  import opened Js
  import opened Auth
  import opened Store

  // ─── Cookies ──────────────────────────────────────────────────────────────

  const SessionCookieName: string := "vendorify_token"

  /** `60 * 60 * 24 * 7`: the session cookie's Max-Age in seconds. */
  const SessionMaxAge: int := 60 * 60 * 24 * 7

  datatype SameSite = Lax | Strict | Unrestricted | Unset

  /** When a cookie lapses: after a Max-Age in seconds, or at an absolute
      Expires instant (seconds since the epoch). */
  datatype Expiry = MaxAge(seconds: int) | ExpiresAt(epoch: int)

  datatype CookieAttributes = CookieAttributes(
    httpOnly: bool, secure: bool, sameSite: SameSite, path: string, expiry: Expiry)

  datatype SetCookie = SetCookie(name: string, value: string, attributes: CookieAttributes)

  /** The attributes the auth endpoints give the session cookie: HTTP-only,
      `secure` exactly in production, SameSite=Lax, path `/`. */
  function SessionAttributes(production: bool, maxAge: int): (a: CookieAttributes)
    ensures a.httpOnly && a.secure == production && a.sameSite == Lax && a.path == "/"
    ensures a.expiry == MaxAge(maxAge)
  {
    CookieAttributes(true, production, Lax, "/", MaxAge(maxAge))
  }

  /** The cookie signup and login issue. */
  function SessionCookie(env: Env, token: string): SetCookie {
    SetCookie(SessionCookieName, token, SessionAttributes(env.production, SessionMaxAge))
  }

  /** The cookie logout issues: the same name and attributes, an empty
      value and Max-Age 0. */
  function ExpiredSessionCookie(env: Env): SetCookie {
    SetCookie(SessionCookieName, "", SessionAttributes(env.production, 0))
  }

  /** `request.cookies.get('vendorify_token')?.value` */
  function SessionToken(cookies: map<string, string>): (r: Option<string>)
    ensures r.Some? <==> SessionCookieName in cookies
    ensures r.Some? ==> r.value == cookies[SessionCookieName]
  {
    if SessionCookieName in cookies then Some(cookies[SessionCookieName]) else None
  }

  /** `token ? await verifyToken(token) : null`: the caller's claims, or
      `None` when the cookie is absent, empty or does not verify. */
  function CurrentUser(p: Primitives, env: Env, cookies: map<string, string>, now: int): (r: Option<Claims>)
    ensures r.Some? <==> Truthy(SessionToken(cookies)) && VerifyToken(p, env, cookies[SessionCookieName], now).Some?
    ensures r.Some? ==> r == VerifyToken(p, env, cookies[SessionCookieName], now)
  {
    var token := SessionToken(cookies);
    if Truthy(token) then VerifyToken(p, env, token.value, now) else None
  }

  // ─── Responses ────────────────────────────────────────────────────────────

  /** The public part of a user: never the password hash. */
  datatype PublicUser = PublicUser(id: int, name: string, email: string)

  function Public(u: User): PublicUser {
    PublicUser(u.id, u.name, u.email)
  }

  /** The JSON bodies the handlers produce. */
  datatype Body =
    | ErrorBody(error: string)
    | MessageBody(message: string)
    | AccountBody(message: string, user: PublicUser)
    | UploadBody(success: bool, fileName: string, message: string)
    | ApplicationBody(application: Application)
    | ApplicationListBody(applications: seq<Application>)

  datatype Response = Response(status: int, body: Body, cookie: Option<SetCookie>)

  const InternalErrorMessage: string := "Internal server error."
  const UnauthorizedMessage: string := "Unauthorized"

  /** The catch-all answer of every handler's `catch`. */
  const InternalError: Response := Response(500, ErrorBody(InternalErrorMessage), None)

  /** The answer the resource endpoints give without a valid session. */
  const Unauthorized: Response := Response(401, ErrorBody(UnauthorizedMessage), None)

  /** `NextResponse.json({ error }, { status })` */
  function Fail(status: int, error: string): Response {
    Response(status, ErrorBody(error), None)
  }

  /** A handler's answer together with the store after it. */
  datatype Outcome = Outcome(response: Response, db: Db)
}

=== FILE: js.dfy ===
/**
 The few JavaScript value semantics the handlers rely on: optional values
 (`undefined`/`null` versus a value), truthiness of strings, the nullish
 coalescing operator `??`, `String.prototype.startsWith` and the
 `length` of a string, which counts UTF-16 code units.
 */
module Js {

  /** A value that may be `undefined` or `null` (both are `None` here). */
  datatype Option<+T> = None | Some(value: T)

  /** `!!v` for an optional string: `undefined`, `null` and `""` are falsy. */
  predicate Truthy(v: Option<string>) {
    v.Some? && v.value != ""
  }

  /** `a ?? fallback`: only a missing value falls back; `""` is kept. */
  function Coalesce<T>(a: Option<T>, fallback: T): (r: T)
    ensures a.Some? ==> r == a.value
    ensures a.None? ==> r == fallback
  {
    match a
    case Some(v) => v
    case None => fallback
  }

  /** A character outside the Basic Multilingual Plane, which UTF-16 stores
      as a surrogate pair. */
  predicate Astral(c: char) {
    c as int > 0xFFFF
  }

  /** `s.length`: one code unit per character, two for an astral one; with
      `Utf16Append` this fixes the length of every string. */
  function Utf16Length(s: string): (n: nat)
    ensures |s| == 1 ==> n == if Astral(s[0]) then 2 else 1
    ensures |s| <= n <= 2 * |s|
    ensures n == |s| <==> forall i :: 0 <= i < |s| ==> !Astral(s[i])
    ensures n == 2 * |s| <==> forall i :: 0 <= i < |s| ==> Astral(s[i])
  {
    if |s| == 0 then 0 else (if Astral(s[0]) then 2 else 1) + Utf16Length(s[1..])
  }

  /** The code units of a concatenation are those of its parts. */
  lemma {:induction false} Utf16Append(a: string, b: string)
    ensures Utf16Length(a + b) == Utf16Length(a) + Utf16Length(b)
    decreases |a|
  {
    if |a| == 0 {
      assert a + b == b;
    } else {
      assert (a + b)[1..] == a[1..] + b;
      Utf16Append(a[1..], b);
    }
  }

  /** `s.startsWith(prefix)` */
  predicate StartsWith(s: string, prefix: string) {
    |prefix| <= |s| && s[..|prefix|] == prefix
  }
}

=== FILE: login.dfy ===
/**
 `POST /api/auth/login` (`app/api/auth/login/route.ts`): look the user up by
 email, check the password against the stored hash, and on success issue
 the same session cookie signup issues. An unknown email and a wrong
 password get one and the same answer.
 */
module Login {
  import opened Js
  import opened Auth
  import opened Store
  import opened Http

  /** The JSON body's fields; `None` is a field that is missing or `null`. */
  datatype LoginBody = LoginBody(email: Option<string>, password: Option<string>)

  const MissingFieldsMessage: string := "Email and password are required."
  const InvalidCredentialsMessage: string := "Invalid email or password."
  const SuccessMessage: string := "Login successful"

  /** The one answer for both an unknown email and a wrong password. */
  const InvalidCredentials: Response := Response(401, ErrorBody(InvalidCredentialsMessage), None)

  predicate Complete(b: LoginBody) {
    Truthy(b.email) && Truthy(b.password)
  }

  /** The credentials match a stored user. */
  predicate Authenticates(p: Primitives, db: Db, b: LoginBody)
    requires Complete(b)
  {
    b.email.value in db.users && VerifyPassword(p, b.password.value, db.users[b.email.value].password)
  }

  /** The handler; `now` is the clock read when the token is signed. */
  function Post(p: Primitives, env: Env, db: Db, body: Option<LoginBody>, now: int): (out: Outcome)
    ensures out.db == db
    ensures out.response.status in {200, 400, 401, 500}
    ensures body.None? ==> out.response == InternalError
    ensures out.response.status == 400 <==> body.Some? && !Complete(body.value)
    ensures out.response.status == 400 ==> out.response == Fail(400, MissingFieldsMessage)
    ensures out.response.status == 500 <==>
      || body.None?
      || (Complete(body.value) && !db.online)
      || (Complete(body.value) && db.online && Authenticates(p, db, body.value) && !UsableKey(SigningKey(env)))
    ensures out.response.status == 500 ==> out.response == InternalError
    ensures out.response.status == 401 <==> body.Some? && Complete(body.value) && db.online && !Authenticates(p, db, body.value)
    ensures out.response.status == 401 ==> out.response == InvalidCredentials
    ensures out.response.status == 200 <==>
      body.Some? && Complete(body.value) && db.online && Authenticates(p, db, body.value) && UsableKey(SigningKey(env))
    ensures out.response.status == 200 ==>
      var u := db.users[body.value.email.value];
      var token := SignToken(p, env, JwtPayload(u.id, u.email, u.name), now);
      && out.response.body == AccountBody(SuccessMessage, PublicUser(u.id, u.name, u.email))
      && token.Some?
      && out.response.cookie == Some(SessionCookie(env, token.value))
    ensures out.response.status != 200 ==> out.response.cookie.None?
  {
    match body
    case None => Outcome(InternalError, db)
    case Some(b) =>
      if !Complete(b) then Outcome(Fail(400, MissingFieldsMessage), db)
      else if !db.online then Outcome(InternalError, db)
      else
        match FindUserByEmail(db, b.email.value)
        case None => Outcome(InvalidCredentials, db)
        case Some(user) =>
          if !VerifyPassword(p, b.password.value, user.password) then Outcome(InvalidCredentials, db)
          else
            match SignToken(p, env, JwtPayload(user.id, user.email, user.name), now)
            case None => Outcome(InternalError, db)
            case Some(token) =>
              Outcome(Response(200, AccountBody(SuccessMessage, Public(user)), Some(SessionCookie(env, token))), db)
  }

  /** An unknown email and a known email with a wrong password are
      indistinguishable to the client. */
  lemma UniformFailure(p: Primitives, env: Env, db1: Db, db2: Db, b1: LoginBody, b2: LoginBody, now1: int, now2: int)
    requires db1.online && db2.online && Complete(b1) && Complete(b2)
    requires b1.email.value !in db1.users
    requires b2.email.value in db2.users && !VerifyPassword(p, b2.password.value, db2.users[b2.email.value].password)
    ensures Post(p, env, db1, Some(b1), now1).response == Post(p, env, db2, Some(b2), now2).response
  {
  }

  /** Login has no length rule: any non-empty password reaches the
      credential check, even one signup would reject as too short, and is
      refused only when the check fails. */
  lemma NoLengthRule(p: Primitives, env: Env, db: Db, email: string, password: string, now: int)
    requires db.online && email != "" && password != ""
    ensures var b := LoginBody(Some(email), Some(password));
      var r := Post(p, env, db, Some(b), now).response;
      && r.status != 400
      && (r.status == 401 <==> !Authenticates(p, db, b))
  {
  }
}

=== FILE: logout.dfy ===
/**
 `POST /api/auth/logout` (`app/api/auth/logout/route.ts`): no input, no
 session needed; the answer overwrites the session cookie with an empty
 value and Max-Age 0, under the attributes it was set with.
 */
module Logout {
  import opened Js
  import opened Auth
  import opened Http

  const LoggedOutMessage: string := "Logged out"

  /** The handler. It reads nothing but the deployment flag. */
  function Post(env: Env): (r: Response)
    ensures r.status == 200 && r.body == MessageBody(LoggedOutMessage)
    ensures r.cookie.Some? && r.cookie.value.name == SessionCookieName && r.cookie.value.value == ""
    ensures r.cookie.value.attributes.expiry == MaxAge(0)
  {
    Response(200, MessageBody(LoggedOutMessage), Some(ExpiredSessionCookie(env)))
  }

  /** The expiring cookie differs from the one signup and login set only in
      its value and lifetime: name, path, HTTP-only, secure and SameSite all
      agree, which is what lets a client match and drop the old cookie. */
  lemma MatchesIssuedCookie(env: Env, token: string)
    ensures var gone := Post(env).cookie.value;
      var issued := SessionCookie(env, token);
      && gone.name == issued.name
      && gone.attributes == issued.attributes.(expiry := MaxAge(0))
      && issued.attributes.expiry == MaxAge(SessionMaxAge)
  {
  }
}

=== FILE: proxy.dfy ===
/**
 The route gate (`proxy.ts`): Next.js runs it before every request whose path
 the `config.matcher` patterns select; it passes the request on, redirects to
 the login page, or redirects and deletes a session cookie that does not
 verify.
 */
module Gate {
  import opened Js
  import opened Auth
  import opened Http

  /** `PROTECTED`: the path prefixes that need a session. */
  const Protected: seq<string> := ["/dashboard", "/vendors/new"]

  /** The redirect target. */
  const LoginPath: string := "/login"

  /** The gate computes its key with the same expression as `src/lib/auth.ts`,
      so it accepts exactly the tokens the handlers accept. */
  function GateKey(env: Env): (key: string)
    ensures key == SigningKey(env)
  {
    Coalesce(env.jwtSecret, "vendorify-demo-secret-key-2026")
  }

  /** `PROTECTED.some((p) => pathname.startsWith(p))` */
  predicate NeedsAuth(path: string)
    ensures NeedsAuth(path) <==> StartsWith(path, "/dashboard") || StartsWith(path, "/vendors/new")
  {
    assert Protected[0] == "/dashboard" && Protected[1] == "/vendors/new";
    exists i :: 0 <= i < |Protected| && StartsWith(path, Protected[i])
  }

  /** What the gate does with a request. */
  datatype GateResponse = Next | Redirect(location: string, cookie: Option<SetCookie>)

  /** `response.cookies.delete('vendorify_token')`: an empty value that
      expired at the epoch; the framework fills in path `/` and sets no
      other attribute. */
  const DeleteSessionCookie: SetCookie :=
    SetCookie(SessionCookieName, "", CookieAttributes(false, false, Unset, "/", ExpiresAt(0)))

  /** `proxy(request)`, the clock read by `jwtVerify` passed in as `now`. */
  function Proxy(p: Primitives, env: Env, path: string, cookies: map<string, string>, now: int): (r: GateResponse)
    ensures !NeedsAuth(path) ==> r == Next
    ensures r.Redirect? ==> r.location == LoginPath
    ensures NeedsAuth(path) ==> (r == Next <==> CurrentUser(p, env, cookies, now).Some?)
    ensures r.Redirect? ==> (r.cookie.Some? <==> Truthy(SessionToken(cookies)))
    ensures r.Redirect? && r.cookie.Some? ==> r.cookie.value == DeleteSessionCookie
  {
    if !NeedsAuth(path) then Next
    else
      var token := SessionToken(cookies);
      if !Truthy(token) then Redirect(LoginPath, None)
      else if JwtVerify(p, GateKey(env), token.value, now).Some? then Next
      else Redirect(LoginPath, Some(DeleteSessionCookie))
  }

  /** `config.matcher`: `/dashboard/:path*` and `/vendors/new/:path*`, i.e.
      the root itself or anything below it. */
  const MatcherRoots: seq<string> := ["/dashboard", "/vendors/new"]

  predicate Matched(path: string)
    ensures Matched(path) <==>
      || path in {"/dashboard", "/vendors/new"}
      || StartsWith(path, "/dashboard/") || StartsWith(path, "/vendors/new/")
  {
    assert MatcherRoots[0] + "/" == "/dashboard/" && MatcherRoots[1] + "/" == "/vendors/new/";
    exists i :: 0 <= i < |MatcherRoots| && (path == MatcherRoots[i] || StartsWith(path, MatcherRoots[i] + "/"))
  }

  /** Every path the matcher selects is one `proxy` gates: the matcher only
      narrows which requests reach the prefix test. */
  lemma MatchedNeedsAuth(path: string)
    requires Matched(path)
    ensures NeedsAuth(path)
  {
  }

  /** The framework's behaviour: requests outside the matcher never reach
      `proxy` and go through. */
  function Middleware(p: Primitives, env: Env, path: string, cookies: map<string, string>, now: int): (r: GateResponse)
    ensures !Matched(path) ==> r == Next
    ensures Matched(path) ==> r == Proxy(p, env, path, cookies, now)
    ensures Matched(path) ==> (r == Next <==> CurrentUser(p, env, cookies, now).Some?)
    ensures Matched(path) && r.Redirect? ==> r.location == LoginPath
  {
    if Matched(path) then Proxy(p, env, path, cookies, now) else Next
  }

  /** A protected root and every sub-path of it are gated: they pass if and
      only if a non-empty session cookie verifies, and are otherwise
      redirected to the login page. */
  lemma SubPathsGated(p: Primitives, env: Env, i: int, rest: string, cookies: map<string, string>, now: int)
    requires 0 <= i < |Protected|
    ensures var sub := Protected[i] + "/" + rest;
      && Middleware(p, env, sub, cookies, now) == Proxy(p, env, sub, cookies, now)
      && (Middleware(p, env, sub, cookies, now) == Next <==> CurrentUser(p, env, cookies, now).Some?)
    ensures Middleware(p, env, Protected[i], cookies, now) == Next <==> CurrentUser(p, env, cookies, now).Some?
  {
  }

  /** A path that starts with no protected prefix goes through, whatever
      cookie it carries. */
  lemma UnprotectedPassesThrough(p: Primitives, env: Env, path: string, cookies: map<string, string>, now: int)
    requires forall i :: 0 <= i < |Protected| ==> !StartsWith(path, Protected[i])
    ensures Middleware(p, env, path, cookies, now) == Next
  {
  }
}

=== FILE: signup.dfy ===
/**
 `POST /api/auth/signup` (`app/api/auth/signup/route.ts`): validate, hash,
 create the user under the unique email constraint, sign a session token,
 set it as the session cookie and answer with the public fields.
 */
module Signup {
  import opened Js
  import opened Auth
  import opened Store
  import opened Http

  /** The JSON body's fields; `None` is a field that is missing or `null`. */
  datatype SignupBody = SignupBody(name: Option<string>, email: Option<string>, password: Option<string>)

  const MissingFieldsMessage: string := "Name, email, and password are required."
  const ShortPasswordMessage: string := "Password must be at least 6 characters."
  const DuplicateEmailMessage: string := "An account with this email already exists."
  const CreatedMessage: string := "Account created successfully"

  const MinPasswordLength: int := 6

  /** All three fields are truthy. */
  predicate Complete(b: SignupBody) {
    Truthy(b.name) && Truthy(b.email) && Truthy(b.password)
  }

  /** The body passes both validation steps; the length rule counts UTF-16
      code units, as `password.length` does. */
  predicate Acceptable(b: SignupBody) {
    Complete(b) && Utf16Length(b.password.value) >= MinPasswordLength
  }

  /** The request reaches the insert and the insert succeeds: a well-formed,
      acceptable body, a reachable store and an email nobody has. */
  predicate Inserts(db: Db, body: Option<SignupBody>) {
    body.Some? && Acceptable(body.value) && db.online && body.value.email.value !in db.users
  }

  /** The store part of a signup: exactly one user was added under the
      free email, holding the hash of the password (never the password),
      the user counter moved on by one, and nothing else in the store
      changed. */
  ghost predicate UserAdded(p: Primitives, db: Db, b: SignupBody, salt: Salt, db': Db)
    requires Acceptable(b)
  {
    var email := b.email.value;
    && email !in db.users
    && email in db'.users
    && db'.users[email] == User(db.nextUserId, b.name.value, email, HashPassword(p, b.password.value, salt))
    && db' == db.(users := db.users[email := db'.users[email]], nextUserId := db.nextUserId + 1)
  }

  /** What a successful signup promises: the user was added, the session
      token carries the new row's id, email and name, and the answer shows
      only the public fields. */
  ghost predicate SignedUp(p: Primitives, env: Env, db: Db, b: SignupBody, salt: Salt, now: int, out: Outcome)
    requires Acceptable(b)
  {
    && UserAdded(p, db, b, salt, out.db)
    && var u := out.db.users[b.email.value];
    && var token := SignToken(p, env, JwtPayload(u.id, u.email, u.name), now);
    && token.Some?
    && out.response == Response(201, AccountBody(CreatedMessage, PublicUser(u.id, u.name, u.email)),
                                Some(SessionCookie(env, token.value)))
  }

  /** The handler. `salt` is bcrypt's random salt and `now` the clock read
      when the token is signed. A body that is not JSON is `None`. */
  function Post(p: Primitives, env: Env, db: Db, body: Option<SignupBody>, salt: Salt, now: int): (out: Outcome)
    ensures out.response.status in {201, 400, 409, 500}
    ensures body.None? ==> out.response == InternalError
    ensures out.response.status == 400 <==> body.Some? && !Acceptable(body.value)
    ensures out.response.status == 400 && !Complete(body.value) ==> out.response.body == ErrorBody(MissingFieldsMessage)
    ensures out.response.status == 400 && Complete(body.value) ==> out.response.body == ErrorBody(ShortPasswordMessage)
    ensures out.response.status == 409 <==> body.Some? && Acceptable(body.value) && db.online && body.value.email.value in db.users
    ensures out.response.status == 409 ==> out.response.body == ErrorBody(DuplicateEmailMessage)
    ensures out.response.status == 500 ==> out.response == InternalError
    ensures out.response.status != 201 ==> out.response.cookie.None?
    ensures !Inserts(db, body) ==> out.db == db
    ensures out.response.status == 201 <==> Inserts(db, body) && UsableKey(SigningKey(env))
    ensures out.response.status == 201 ==> SignedUp(p, env, db, body.value, salt, now, out)
    ensures Inserts(db, body) && !UsableKey(SigningKey(env)) ==>
      out.response == InternalError && UserAdded(p, db, body.value, salt, out.db)
    ensures Valid(db) ==> Valid(out.db)
  {
    match body
    case None => Outcome(InternalError, db)
    case Some(b) =>
      if !Complete(b) then Outcome(Fail(400, MissingFieldsMessage), db)
      else if Utf16Length(b.password.value) < MinPasswordLength then Outcome(Fail(400, ShortPasswordMessage), db)
      else
        var hashed := HashPassword(p, b.password.value, salt);
        match CreateUser(db, b.name.value, b.email.value, hashed)
        case CreateFailed(UniqueViolation) => Outcome(Fail(409, DuplicateEmailMessage), db)
        case CreateFailed(Unavailable) => Outcome(InternalError, db)
        case Created(UserCreated(user, db')) =>
          match SignToken(p, env, JwtPayload(user.id, user.email, user.name), now)
          case None => Outcome(InternalError, db')
          case Some(token) =>
            Outcome(Response(201, AccountBody(CreatedMessage, Public(user)), Some(SessionCookie(env, token))), db')
  }

  /** The stored credential is never the plaintext password. */
  lemma PlaintextNeverStored(p: Primitives, env: Env, db: Db, b: SignupBody, salt: Salt, now: int)
    requires BcryptLawful(p)
    requires Post(p, env, db, Some(b), salt, now).response.status == 201
    ensures var out := Post(p, env, db, Some(b), salt, now);
      && out.db.users[b.email.value].password != b.password.value
      && VerifyPassword(p, b.password.value, out.db.users[b.email.value].password)
  {
  }

  /** Signing up twice with one email: the second attempt is a 409 that
      leaves the store as the first one left it, so two accounts never
      share an email. */
  lemma SecondSignupConflicts(p: Primitives, env: Env, db: Db, b1: SignupBody, b2: SignupBody,
                              salt1: Salt, salt2: Salt, now1: int, now2: int)
    requires Valid(db)
    requires Inserts(db, Some(b1)) && UsableKey(SigningKey(env))
    requires Acceptable(b2) && b2.email == b1.email
    ensures Post(p, env, db, Some(b1), salt1, now1).response.status == 201
    ensures var db1 := Post(p, env, db, Some(b1), salt1, now1).db;
      var out2 := Post(p, env, db1, Some(b2), salt2, now2);
      && out2.response == Fail(409, DuplicateEmailMessage)
      && out2.db == db1
      && EmailsUnique(out2.db)
  {
  }

  /** With a `JWT_SECRET` that is set but empty, signing throws after the
      insert: the account exists although the answer is 500 and no cookie
      is set, and signing up again with that email is refused with 409. */
  lemma EmptySecretStrandsAccount(p: Primitives, env: Env, db: Db, b: SignupBody, again: SignupBody,
                                  salt1: Salt, salt2: Salt, now1: int, now2: int)
    requires env.jwtSecret == Some("")
    requires Inserts(db, Some(b))
    requires Acceptable(again) && again.email == b.email
    ensures var out := Post(p, env, db, Some(b), salt1, now1);
      && out.response == InternalError
      && b.email.value in out.db.users && b.email.value !in db.users
      && Post(p, env, out.db, Some(again), salt2, now2).response == Fail(409, DuplicateEmailMessage)
  {
  }

  /** The length rule counts UTF-16 code units: three emoji outside the
      Basic Multilingual Plane make a password of length 6 and pass, as do
      two letters and two emoji, while three ASCII letters, or three letters
      and one emoji, do not. */
  lemma LengthCountsCodeUnits(name: string, email: string)
    requires name != "" && email != ""
    ensures Acceptable(SignupBody(Some(name), Some(email), Some("\U{1F600}\U{1F600}\U{1F600}")))
    ensures Acceptable(SignupBody(Some(name), Some(email), Some("ab\U{1F600}\U{1F600}")))
    ensures !Acceptable(SignupBody(Some(name), Some(email), Some("abc")))
    ensures !Acceptable(SignupBody(Some(name), Some(email), Some("abc\U{1F600}")))
  {
  }
}

=== FILE: store.dfy ===
/**
 The relational store the handlers talk to, reduced to the three tables they
 touch: users (unique on email), documents and vendor applications. Ids are
 auto-incremented. `online == false` stands for a store that throws on every
 query (connection lost, constraint other than the email one, ...).
 */
module Store {
  import opened Js

  /** A user row; `password` holds the bcrypt hash. */
  datatype User = User(id: int, name: string, email: string, password: string)

  datatype Document = Document(id: int, fileName: string, fileUrl: string, userId: int)

  datatype Application = Application(
    id: int, vendorName: string, stallType: string, licenseNumber: string,
    status: string, userId: int, createdAt: int)

  /** The status every new vendor application starts in. */
  const PendingStatus: string := "Pending"

  datatype Db = Db(
    users: map<string, User>,          // keyed by the unique email column
    documents: seq<Document>,
    applications: seq<Application>,
    nextUserId: int,
    nextDocumentId: int,
    nextApplicationId: int,
    online: bool)

  /** The store's integrity: every user sits under its own email (so emails
      are unique), user ids are distinct and below the counter, and the ids
      of the other tables increase in table order and stay below theirs. */
  ghost predicate Valid(db: Db) {
    && (forall e :: e in db.users ==> db.users[e].email == e && db.users[e].id < db.nextUserId)
    && (forall e1, e2 :: e1 in db.users && e2 in db.users && db.users[e1].id == db.users[e2].id ==> e1 == e2)
    && (forall i, j :: 0 <= i < j < |db.documents| ==> db.documents[i].id < db.documents[j].id)
    && (forall i :: 0 <= i < |db.documents| ==> db.documents[i].id < db.nextDocumentId)
    && (forall i, j :: 0 <= i < j < |db.applications| ==> db.applications[i].id < db.applications[j].id)
    && (forall i :: 0 <= i < |db.applications| ==> db.applications[i].id < db.nextApplicationId)
  }

  /** No two rows of the user table share an email. */
  ghost predicate EmailsUnique(db: Db) {
    forall e1, e2 :: e1 in db.users && e2 in db.users && db.users[e1].email == db.users[e2].email ==> e1 == e2
  }

  lemma ValidEmailsUnique(db: Db)
    requires Valid(db)
    ensures EmailsUnique(db)
  {
  }

  /** `prisma.user.findUnique({ where: { email } })` */
  function FindUserByEmail(db: Db, email: string): (r: Option<User>)
    ensures r.Some? <==> email in db.users
    ensures r.Some? ==> r.value == db.users[email]
    ensures Valid(db) && r.Some? ==> r.value.email == email
  {
    if email in db.users then Some(db.users[email]) else None
  }

  /** Why a `create` did not happen. */
  datatype CreateError = UniqueViolation | Unavailable

  /** The result of a user `create`: the new row and the store after it. */
  datatype UserCreated = UserCreated(user: User, db: Db)

  datatype CreateUserResult = Created(created: UserCreated) | CreateFailed(error: CreateError)

  /** `prisma.user.create`: an atomic check-and-insert against the unique
      email constraint. A taken email fails with `UniqueViolation` and changes
      nothing; otherwise exactly one row, with a fresh id, is added. */
  function CreateUser(db: Db, name: string, email: string, password: string): (r: CreateUserResult)
    ensures !db.online <==> r == CreateFailed(Unavailable)
    ensures db.online && email in db.users <==> r == CreateFailed(UniqueViolation)
    ensures r.Created? ==>
      var u := r.created.user;
      && u == User(db.nextUserId, name, email, password)
      && email !in db.users
      && r.created.db == db.(users := db.users[email := u], nextUserId := db.nextUserId + 1)
      && |r.created.db.users| == |db.users| + 1
    ensures r.Created? && Valid(db) ==> Valid(r.created.db)
  {
    if !db.online then CreateFailed(Unavailable)
    else if email in db.users then CreateFailed(UniqueViolation)
    else
      var u := User(db.nextUserId, name, email, password);
      Created(UserCreated(u, db.(users := db.users[email := u], nextUserId := db.nextUserId + 1)))
  }

  /** `prisma.document.create`: appends one row with the next id. */
  function CreateDocument(db: Db, fileName: string, fileUrl: string, userId: int): (r: (Document, Db))
    requires db.online
    ensures r.0 == Document(db.nextDocumentId, fileName, fileUrl, userId)
    ensures r.1 == db.(documents := db.documents + [r.0], nextDocumentId := db.nextDocumentId + 1)
    ensures Valid(db) ==> Valid(r.1)
  {
    var d := Document(db.nextDocumentId, fileName, fileUrl, userId);
    (d, db.(documents := db.documents + [d], nextDocumentId := db.nextDocumentId + 1))
  }

  /** `prisma.vendorApplication.create`: appends one row with the next id,
      stamped with the store's clock as `createdAt`. */
  function CreateApplication(db: Db, vendorName: string, stallType: string, licenseNumber: string,
                             status: string, userId: int, now: int): (r: (Application, Db))
    requires db.online
    ensures r.0 == Application(db.nextApplicationId, vendorName, stallType, licenseNumber, status, userId, now)
    ensures r.1 == db.(applications := db.applications + [r.0], nextApplicationId := db.nextApplicationId + 1)
    ensures Valid(db) ==> Valid(r.1)
  {
    var a := Application(db.nextApplicationId, vendorName, stallType, licenseNumber, status, userId, now);
    (a, db.(applications := db.applications + [a], nextApplicationId := db.nextApplicationId + 1))
  }

  // ─── findMany({ where: { userId }, orderBy: { createdAt: 'desc' } }) ─────────

  /** The applications of `as_` owned by `userId`, in table order. */
  function OwnedBy(as_: seq<Application>, userId: int): (r: seq<Application>)
    ensures forall a :: multiset(r)[a] == if a.userId == userId then multiset(as_)[a] else 0
  {
    if as_ == [] then []
    else
      var rest := OwnedBy(as_[1..], userId);
      assert as_ == [as_[0]] + as_[1..];
      if as_[0].userId == userId then [as_[0]] + rest else rest
  }

  ghost predicate NewestFirst(as_: seq<Application>) {
    forall i, j :: 0 <= i < j < |as_| ==> as_[i].createdAt >= as_[j].createdAt
  }

  /** Putting a row in front of a newest-first list keeps it newest-first
      when the row is at least as new as the list's head. */
  lemma ConsNewestFirst(x: Application, as_: seq<Application>)
    requires NewestFirst(as_)
    requires |as_| > 0 ==> as_[0].createdAt <= x.createdAt
    ensures NewestFirst([x] + as_)
  {
  }

  /** Inserts `a` into a newest-first list, after every row newer than it. */
  function InsertNewestFirst(a: Application, as_: seq<Application>): (r: seq<Application>)
    requires NewestFirst(as_)
    ensures NewestFirst(r)
    ensures multiset(r) == multiset(as_) + multiset{a}
    ensures r[0] == a || (|as_| > 0 && r[0] == as_[0])
  {
    if as_ == [] then [a]
    else if as_[0].createdAt <= a.createdAt then
      ConsNewestFirst(a, as_);
      [a] + as_
    else
      assert NewestFirst(as_[1..]);
      var rest := InsertNewestFirst(a, as_[1..]);
      assert as_ == [as_[0]] + as_[1..];
      assert |as_| > 1 ==> as_[0].createdAt >= as_[1].createdAt;
      ConsNewestFirst(as_[0], rest);
      [as_[0]] + rest
  }

  /** A newest-first ordering of `as_`: a rearrangement of the same rows. */
  function SortNewestFirst(as_: seq<Application>): (r: seq<Application>)
    ensures NewestFirst(r)
    ensures multiset(r) == multiset(as_)
  {
    if as_ == [] then []
    else
      assert as_ == [as_[0]] + as_[1..];
      InsertNewestFirst(as_[0], SortNewestFirst(as_[1..]))
  }

  /** No two rows share a `createdAt`. */
  ghost predicate DistinctTimes(as_: seq<Application>) {
    forall i, j :: 0 <= i < j < |as_| ==> as_[i].createdAt != as_[j].createdAt
  }

  /** With distinct timestamps, both arrangements start with the one newest row. */
  lemma HeadsAgree(xs: seq<Application>, ys: seq<Application>)
    requires NewestFirst(xs) && NewestFirst(ys) && DistinctTimes(xs)
    requires multiset(xs) == multiset(ys) && xs != []
    ensures ys != [] && ys[0] == xs[0]
  {
    assert xs[0] in multiset(ys);
    var k :| 0 <= k < |ys| && ys[k] == xs[0];
    assert ys[0] in multiset(xs);
    var m :| 0 <= m < |xs| && xs[m] == ys[0];
    assert ys[0].createdAt >= ys[k].createdAt;
    assert xs[0].createdAt >= xs[m].createdAt;
  }

  /** Dropping the same head from two arrangements of the same rows leaves
      arrangements of the same rows. */
  lemma TailsAgree(xs: seq<Application>, ys: seq<Application>)
    requires multiset(xs) == multiset(ys) && xs != [] && ys != [] && xs[0] == ys[0]
    ensures multiset(xs[1..]) == multiset(ys[1..])
  {
    assert xs == [xs[0]] + xs[1..] && ys == [ys[0]] + ys[1..];
    assert multiset(xs) == multiset{xs[0]} + multiset(xs[1..]);
    assert multiset(ys) == multiset{ys[0]} + multiset(ys[1..]);
    assert multiset(xs[1..]) == multiset(xs) - multiset{xs[0]};
    assert multiset(ys[1..]) == multiset(ys) - multiset{ys[0]};
  }

  /** With distinct timestamps, "newest first" leaves no choice: two
      newest-first arrangements of the same rows are the same list. So the
      listing does not depend on how the store breaks ties. */
  lemma {:induction false} NewestFirstUnique(xs: seq<Application>, ys: seq<Application>)
    requires NewestFirst(xs) && NewestFirst(ys) && DistinctTimes(xs)
    requires multiset(xs) == multiset(ys)
    ensures xs == ys
    decreases |xs|
  {
    if xs == [] {
      assert |ys| == |multiset(ys)| == 0;
    } else {
      HeadsAgree(xs, ys);
      TailsAgree(xs, ys);
      assert NewestFirst(xs[1..]) && NewestFirst(ys[1..]) && DistinctTimes(xs[1..]);
      NewestFirstUnique(xs[1..], ys[1..]);
      assert xs == [xs[0]] + xs[1..] && ys == [ys[0]] + ys[1..];
    }
  }

  /** The listing `GET /api/vendors` returns. */
  function ApplicationsOf(db: Db, userId: int): (r: seq<Application>)
    ensures NewestFirst(r)
    ensures forall a :: multiset(r)[a] == if a.userId == userId then multiset(db.applications)[a] else 0
    ensures forall a :: a in r <==> a in db.applications && a.userId == userId
  {
    var r := SortNewestFirst(OwnedBy(db.applications, userId));
    assert forall a :: a in r <==> a in multiset(r);
    r
  }
}

=== FILE: upload.dfy ===
/**
 `POST /api/upload` (`app/api/upload/route.ts`): after a chain of checks
 (session, file present, image type, size), record one document with a
 fixed placeholder URL, owned by the session's user.
 */
module Upload {
  import opened Js
  import opened Auth
  import opened Store
  import opened Http

  /** `formData.get('file')`: an uploaded file, or a plain text field of
      that name. */
  datatype FormEntry = FileEntry(name: string, mimeType: string, size: int) | TextEntry(text: string)

  /** The multipart form; `None` is a body that does not parse. */
  datatype UploadRequest = UploadRequest(cookies: map<string, string>, form: Option<Option<FormEntry>>)

  const NoFileMessage: string := "No file provided."
  const BadTypeMessage: string := "Only image files (JPEG, PNG, GIF, WebP) are allowed."
  const TooLargeMessage: string := "File size must be under 5 MB."
  const ReceivedMessage: string := "File received (mock upload for production)."
  const MockFileUrl: string := "https://example.com/mock-file.jpg"

  const AllowedTypes: set<string> := {"image/jpeg", "image/png", "image/gif", "image/webp", "image/jpg"}

  /** `5 * 1024 * 1024` bytes. */
  const MaxFileSize: int := 5 * 1024 * 1024

  /** `!file`: a missing field or an empty text field. */
  predicate Absent(f: Option<FormEntry>) {
    f.None? || f.value == TextEntry("")
  }

  /** `validTypes.includes(file.type)`; a text field has no `type`. */
  predicate AllowedType(f: FormEntry) {
    f.FileEntry? && f.mimeType in AllowedTypes
  }

  /** The handler; `now` is the clock read by `verifyToken`. */
  function Post(p: Primitives, env: Env, db: Db, req: UploadRequest, now: int): (out: Outcome)
    ensures out.response.status in {201, 400, 401, 500}
    ensures out.response.status == 401 <==> CurrentUser(p, env, req.cookies, now).None?
    ensures out.response.status == 401 ==> out.response == Unauthorized
    ensures out.response.status == 400 <==>
      && CurrentUser(p, env, req.cookies, now).Some? && req.form.Some?
      && (Absent(req.form.value) || !AllowedType(req.form.value.value) || req.form.value.value.size > MaxFileSize)
    ensures out.response.status == 500 ==> out.response == InternalError
    ensures out.response.status != 201 ==> out.db == db
    ensures out.response.cookie.None?
    ensures out.response.status == 201 <==>
      && CurrentUser(p, env, req.cookies, now).Some? && req.form.Some? && !Absent(req.form.value)
      && AllowedType(req.form.value.value) && req.form.value.value.size <= MaxFileSize && db.online
    ensures out.response.status == 201 ==>
      && CurrentUser(p, env, req.cookies, now).Some? && req.form.Some? && req.form.value.Some?
      && var f := req.form.value.value;
      && f.FileEntry? && f.mimeType in AllowedTypes && f.size <= MaxFileSize
      && out.db.documents == db.documents + [Document(db.nextDocumentId, f.name, MockFileUrl, CurrentUser(p, env, req.cookies, now).value.userId)]
      && out.db == db.(documents := out.db.documents, nextDocumentId := db.nextDocumentId + 1)
      && out.response.body == UploadBody(true, f.name, ReceivedMessage)
    ensures Valid(db) ==> Valid(out.db)
  {
    match CurrentUser(p, env, req.cookies, now)
    case None => Outcome(Unauthorized, db)
    case Some(user) =>
      match req.form
      case None => Outcome(InternalError, db)
      case Some(file) =>
        if Absent(file) then Outcome(Fail(400, NoFileMessage), db)
        else if !AllowedType(file.value) then Outcome(Fail(400, BadTypeMessage), db)
        else if file.value.size > MaxFileSize then Outcome(Fail(400, TooLargeMessage), db)
        else if !db.online then Outcome(InternalError, db)
        else
          var (doc, db') := CreateDocument(db, file.value.name, MockFileUrl, user.userId);
          Outcome(Response(201, UploadBody(true, file.value.name, ReceivedMessage), None), db')
  }

  /** The checks run in order: a request failing an earlier check gets that
      check's answer whatever comes later in the request. */
  lemma CheckOrder(p: Primitives, env: Env, db: Db, req: UploadRequest, now: int)
    ensures CurrentUser(p, env, req.cookies, now).None? ==>
      Post(p, env, db, req, now).response == Unauthorized
    ensures CurrentUser(p, env, req.cookies, now).Some? && req.form.Some? && Absent(req.form.value) ==>
      Post(p, env, db, req, now).response == Fail(400, NoFileMessage)
    ensures CurrentUser(p, env, req.cookies, now).Some? && req.form.Some? && !Absent(req.form.value)
            && !AllowedType(req.form.value.value) ==>
      Post(p, env, db, req, now).response == Fail(400, BadTypeMessage)
    ensures CurrentUser(p, env, req.cookies, now).Some? && req.form.Some? && !Absent(req.form.value)
            && AllowedType(req.form.value.value) && req.form.value.value.size > MaxFileSize ==>
      Post(p, env, db, req, now).response == Fail(400, TooLargeMessage)
  {
  }

  /** The size bound is inclusive: a 5 MiB image is stored, one byte more is not. */
  lemma SizeBoundary(p: Primitives, env: Env, db: Db, cookies: map<string, string>, name: string, mimeType: string, now: int)
    requires CurrentUser(p, env, cookies, now).Some? && db.online && mimeType in AllowedTypes
    ensures Post(p, env, db, UploadRequest(cookies, Some(Some(FileEntry(name, mimeType, MaxFileSize)))), now).response.status == 201
    ensures Post(p, env, db, UploadRequest(cookies, Some(Some(FileEntry(name, mimeType, MaxFileSize + 1)))), now).response
         == Fail(400, TooLargeMessage)
  {
  }
}

=== FILE: utf8.dfy ===
/**
 UTF-8, as `TextEncoder` and bcrypt's password handling produce it (section 3
 of RFC 3629): every Unicode scalar value becomes one to four bytes, the
 lead byte says how many, and only U+0000 yields a zero byte.
 */
module Utf8 {

  /** How many bytes a sequence starting with lead byte `b` takes. */
  function SequenceLength(b: int): int {
    if b < 0x80 then 1 else if b < 0xE0 then 2 else if b < 0xF0 then 3 else 4
  }

  /** The scalar value of the bytes of one encoded character. */
  function DecodeChar(bytes: seq<int>): int
    requires 1 <= |bytes| <= 4
  {
    match |bytes|
    case 1 => bytes[0]
    case 2 => (bytes[0] - 0xC0) * 64 + (bytes[1] - 0x80)
    case 3 => (bytes[0] - 0xE0) * 4096 + (bytes[1] - 0x80) * 64 + (bytes[2] - 0x80)
    case 4 => (bytes[0] - 0xF0) * 262144 + (bytes[1] - 0x80) * 4096 + (bytes[2] - 0x80) * 64 + (bytes[3] - 0x80)
  }

  /** A continuation byte `10xxxxxx` holding the low six bits of `n`. */
  function Continuation(n: int): (b: int)
    requires 0 <= n
    ensures 0x80 <= b < 0xC0
    ensures n == 64 * (n / 64) + (b - 0x80)
  {
    0x80 + n % 64
  }

  function TwoBytes(n: int): (bytes: seq<int>)
    requires 0x80 <= n < 0x800
    ensures |bytes| == 2 && 0xC2 <= bytes[0] < 0xE0 && 0x80 <= bytes[1] < 0xC0
    ensures DecodeChar(bytes) == n
  {
    [0xC0 + n / 64, Continuation(n)]
  }

  function ThreeBytes(n: int): (bytes: seq<int>)
    requires 0x800 <= n < 0x10000
    ensures |bytes| == 3 && 0xE0 <= bytes[0] < 0xF0
    ensures forall i :: 1 <= i < 3 ==> 0x80 <= bytes[i] < 0xC0
    ensures DecodeChar(bytes) == n
  {
    var m := n / 64;
    [0xE0 + m / 64, Continuation(m), Continuation(n)]
  }

  function FourBytes(n: int): (bytes: seq<int>)
    requires 0x10000 <= n < 0x110000
    ensures |bytes| == 4 && 0xF0 <= bytes[0] < 0xF5
    ensures forall i :: 1 <= i < 4 ==> 0x80 <= bytes[i] < 0xC0
    ensures DecodeChar(bytes) == n
  {
    var m1 := n / 64;
    var m2 := m1 / 64;
    [0xF0 + m2 / 64, Continuation(m2), Continuation(m1), Continuation(n)]
  }

  /** The bytes of one character: as many as the table of section 3 of
      RFC 3629 gives for its range (so no overlong form), the lead byte fixes
      the length, the bytes decode back to the character, and only U+0000 has
      a zero byte. */
  function EncodeChar(c: char): (bytes: seq<int>)
    ensures |bytes| == if c as int < 0x80 then 1 else if c as int < 0x800 then 2
                       else if c as int < 0x10000 then 3 else 4
    ensures forall i :: 0 <= i < |bytes| ==> 0 <= bytes[i] < 256
    ensures SequenceLength(bytes[0]) == |bytes|
    ensures DecodeChar(bytes) == c as int
    ensures c != '\0' ==> forall i :: 0 <= i < |bytes| ==> bytes[i] != 0
  {
    var n := c as int;
    if n < 0x80 then [n]
    else if n < 0x800 then TwoBytes(n)
    else if n < 0x10000 then ThreeBytes(n)
    else FourBytes(n)
  }

  /** The string contains no U+0000. */
  predicate NulFree(s: string) {
    forall i :: 0 <= i < |s| ==> s[i] != '\0'
  }

  /** The UTF-8 bytes of a string: a single character encodes as itself, and
      (by `EncodeAppend`) a string as its characters one after another; so
      one to four bytes per character, all of them bytes, and none of them
      zero unless the string holds U+0000. */
  function Encode(s: string): (bytes: seq<int>)
    ensures |s| == 1 ==> bytes == EncodeChar(s[0])
    ensures |s| <= |bytes| <= 4 * |s|
    ensures forall i :: 0 <= i < |bytes| ==> 0 <= bytes[i] < 256
    ensures NulFree(s) ==> forall i :: 0 <= i < |bytes| ==> bytes[i] != 0
  {
    if |s| == 0 then [] else EncodeChar(s[0]) + Encode(s[1..])
  }

  /** Encoding distributes over concatenation. */
  lemma {:induction false} EncodeAppend(a: string, b: string)
    ensures Encode(a + b) == Encode(a) + Encode(b)
    decreases |a|
  {
    if |a| == 0 {
      assert a + b == b;
    } else {
      assert (a + b)[1..] == a[1..] + b;
      EncodeAppend(a[1..], b);
    }
  }

  /** Distinct strings have distinct encodings. */
  lemma {:induction false} EncodeInjective(a: string, b: string)
    requires Encode(a) == Encode(b)
    ensures a == b
    decreases |a|
  {
    if |a| == 0 {
      assert |b| == 0;
    } else {
      assert |b| > 0;
      var ea, eb := EncodeChar(a[0]), EncodeChar(b[0]);
      assert Encode(a) == ea + Encode(a[1..]);
      assert Encode(b) == eb + Encode(b[1..]);
      assert ea[0] == Encode(a)[0] == eb[0];
      assert |ea| == |eb|;
      assert ea == Encode(a)[..|ea|] == eb;
      assert a[0] as int == b[0] as int;
      assert Encode(a[1..]) == Encode(a)[|ea|..] == Encode(b[1..]);
      EncodeInjective(a[1..], b[1..]);
      assert a == [a[0]] + a[1..] && b == [b[0]] + b[1..];
    }
  }
}

=== FILE: vendors.dfy ===
/**
 `GET` and `POST /api/vendors` (`app/api/vendors/route.ts`): list the
 caller's vendor applications newest first, and submit a new one, which
 always starts as `Pending` and always belongs to the session's user.
 */
module Vendors {
  import opened Js
  import opened Auth
  import opened Store
  import opened Http

  /** The JSON body. `userId` and `status` stand for fields a client may add
      on its own; the handler never reads them. */
  datatype VendorBody = VendorBody(
    vendorName: Option<string>, stallType: Option<string>, licenseNumber: Option<string>,
    userId: Option<int>, status: Option<string>)

  const MissingFieldsMessage: string := "All fields are required."

  predicate Complete(b: VendorBody) {
    Truthy(b.vendorName) && Truthy(b.stallType) && Truthy(b.licenseNumber)
  }

  /** `GET`: the caller's applications; `now` is the clock read by `verifyToken`. */
  function Get(p: Primitives, env: Env, db: Db, cookies: map<string, string>, now: int): (out: Outcome)
    ensures out.db == db
    ensures out.response.status in {200, 401, 500}
    ensures out.response.cookie.None?
    ensures out.response.status == 401 <==> CurrentUser(p, env, cookies, now).None?
    ensures out.response.status == 401 ==> out.response == Unauthorized
    ensures out.response.status == 500 <==> CurrentUser(p, env, cookies, now).Some? && !db.online
    ensures out.response.status == 500 ==> out.response == InternalError
    ensures out.response.status == 200 ==>
      && out.response.body.ApplicationListBody?
      && var listed := out.response.body.applications;
      && var owner := CurrentUser(p, env, cookies, now).value.userId;
      && NewestFirst(listed)
      && (forall a :: a in listed <==> a in db.applications && a.userId == owner)
      && (forall a :: multiset(listed)[a] == if a.userId == owner then multiset(db.applications)[a] else 0)
  {
    match CurrentUser(p, env, cookies, now)
    case None => Outcome(Unauthorized, db)
    case Some(user) =>
      if !db.online then Outcome(InternalError, db)
      else Outcome(Response(200, ApplicationListBody(ApplicationsOf(db, user.userId)), None), db)
  }

  /** What a successful submission promises: one application, built from
      the body's three fields, `Pending`, owned by the session's user and
      stamped `now`, is appended and echoed back; apart from the application
      counter moving on by one, nothing else in the store changes. */
  ghost predicate Submitted(db: Db, b: VendorBody, owner: int, now: int, out: Outcome)
    requires Complete(b)
  {
    var a := Application(db.nextApplicationId, b.vendorName.value, b.stallType.value, b.licenseNumber.value,
                         PendingStatus, owner, now);
    && out.response == Response(201, ApplicationBody(a), None)
    && out.db == db.(applications := db.applications + [a], nextApplicationId := db.nextApplicationId + 1)
  }

  /** `POST`: submit an application; `now` is both the token clock and the
      store's `createdAt` default. */
  function Post(p: Primitives, env: Env, db: Db, cookies: map<string, string>, body: Option<VendorBody>, now: int): (out: Outcome)
    ensures out.response.status in {201, 400, 401, 500}
    ensures out.response.status == 401 <==> CurrentUser(p, env, cookies, now).None?
    ensures out.response.status == 401 ==> out.response == Unauthorized
    ensures out.response.status == 400 <==> CurrentUser(p, env, cookies, now).Some? && body.Some? && !Complete(body.value)
    ensures out.response.status == 400 ==> out.response == Fail(400, MissingFieldsMessage)
    ensures out.response.status == 500 ==> out.response == InternalError
    ensures out.response.status != 201 ==> out.db == db
    ensures out.response.status == 201 <==>
      CurrentUser(p, env, cookies, now).Some? && body.Some? && Complete(body.value) && db.online
    ensures out.response.status == 201 ==>
      Submitted(db, body.value, CurrentUser(p, env, cookies, now).value.userId, now, out)
    ensures Valid(db) ==> Valid(out.db)
  {
    match CurrentUser(p, env, cookies, now)
    case None => Outcome(Unauthorized, db)
    case Some(user) =>
      match body
      case None => Outcome(InternalError, db)
      case Some(b) =>
        if !Complete(b) then Outcome(Fail(400, MissingFieldsMessage), db)
        else if !db.online then Outcome(InternalError, db)
        else
          var (a, db') := CreateApplication(db, b.vendorName.value, b.stallType.value, b.licenseNumber.value,
                                            PendingStatus, user.userId, now);
          Outcome(Response(201, ApplicationBody(a), None), db')
  }

  /** The owner and status of a new application are the server's choice:
      whatever `userId` or `status` the client sends, the outcome is the same. */
  lemma OwnerAndStatusIgnored(p: Primitives, env: Env, db: Db, cookies: map<string, string>, b: VendorBody,
                              userId: Option<int>, status: Option<string>, now: int)
    ensures Post(p, env, db, cookies, Some(b), now) == Post(p, env, db, cookies, Some(b.(userId := userId, status := status)), now)
  {
  }

  /** Without a valid session neither handler looks at the store or the
      body: the answer is the same 401 for every store and body. */
  lemma UnauthorizedIgnoresStore(p: Primitives, env: Env, db1: Db, db2: Db, cookies: map<string, string>,
                                 b1: Option<VendorBody>, b2: Option<VendorBody>, now: int)
    requires CurrentUser(p, env, cookies, now).None?
    ensures Get(p, env, db1, cookies, now).response == Get(p, env, db2, cookies, now).response == Unauthorized
    ensures Post(p, env, db1, cookies, b1, now).response == Post(p, env, db2, cookies, b2, now).response == Unauthorized
  {
  }

  /** A submitted application shows up in its owner's listing, and in nobody
      else's. */
  lemma SubmittedIsListed(p: Primitives, env: Env, db: Db, owner: map<string, string>, other: map<string, string>,
                          b: VendorBody, now: int, later: int)
    requires Post(p, env, db, owner, Some(b), now).response.status == 201
    requires CurrentUser(p, env, owner, later).Some?
    requires CurrentUser(p, env, owner, later).value.userId == CurrentUser(p, env, owner, now).value.userId
    requires CurrentUser(p, env, other, later).Some?
    ensures var out := Post(p, env, db, owner, Some(b), now);
      var a := out.response.body.application;
      && Get(p, env, out.db, owner, later).response.status == 200
      && a in Get(p, env, out.db, owner, later).response.body.applications
      && (CurrentUser(p, env, other, later).value.userId != a.userId ==>
            a !in Get(p, env, out.db, other, later).response.body.applications)
  {
  }
}
